=== FILE: README.md ===
# Rugby World Cup 2027 predictor: bracket engine

This project is a Dafny model of the bracket engine of a rugby World Cup predictor, with proofs about it. Six pools of four teams feed a Round of 16, and the winners then advance through the quarter-finals, the semi-finals, the final and a third-place match. The model covers three parts.

- **Initial data** (`src/data/teams.js`): the six pools as loaded, and the copy handed out to the controller. A pool is an ordered sequence whose order is its standing: index 0 wins the pool, index 1 is runner-up, index 2 is the best-third candidate.
- **Seeding engine** (`src/hooks/useSeeding.js`), in modules `Ranking` and `Seeding`:
  - It selects up to four "best third" pools from a rankings object. It keeps the numeric ranks, sorts them stably in ascending order and takes the first four.
  - It assigns those pools greedily to the hosts A1, B1, C1 and D1. Each host has a fixed priority list.
  - It lays out the eight Round-of-16 matches from a fixed template.
- **Tournament controller** (`src/hooks/useTournament.js`), in modules `PoolStore`, `Progression` and `Tournament`:
  - four operations: reorder a team inside a pool, reset the pools, reset the bracket, and select a winner;
  - four effects. The first redraws the controller's own Round of 16 whenever the pools change. The others build each next round once the round before it is complete.

Two modules are shared. `Teams` holds the data model of pools and teams. `Bracket` holds matches, rounds, the empty templates and the "no team twice" and "winner is one of the two teams" predicates.

## How the controller is modelled

The hook's state (`useTournament.js:10-18`) is the record `Tournament.State`. One operation followed by everything React runs in reaction to it is `Tournament.Step`, which works in three stages.

1. `Apply` performs the operation's own state updates. It also records which effect dependencies were set, in `Dirty`. A setter always stores a fresh array, so a set dependency counts as changed.
2. `Pass` runs, in declaration order, every effect whose dependency was set. Each effect reads the committed state and adds its updates to the next commit.
3. `Settle` repeats passes until no dependency is set. It terminates because every effect only sets dependencies further down the chain pools → Round of 16 → quarter-finals → semi-finals.

Mounting runs every effect once on the initial state (`Init`). In that initial state, `final` and `thirdPlace` hold `{}`, which the model writes as `Unset`.

The controller has its own Round of 16 (`useTournament.js:73-90`). It is a different derivation from the seeding engine's and does not call it:
- it ignores any ranking;
- it takes the thirds of the first four pools;
- it uses other pairings.

The model keeps the two apart: `Progression.InlineRoundOf16` versus `Seeding.DetermineRoundOf16`.

Three behaviours of the code are easy to miss; the model follows the code in each case.

- **Reordering after mount leaves the later rounds in place.** Reordering a pool, or resetting the pools, redraws the Round of 16. The later rounds are built only while the quarter-finals are still empty, which is never true after mount. So those rounds, their winners and the champion stay as they were (`Tournament.ReorderAfterMount`).
- **The champion is not cleared when the final is rebuilt.** Re-picking a semi-final winner rebuilds the final and the third-place match without winners. A champion picked earlier stays (`Tournament.SemiFinalSelection`).
- **The controller's third match pits a pool against itself.** Match `r16_3` pairs the winner of pool D with pool D's own third (`Progression.InlinePairsPoolDWithItself`).

The views take a `thirdRankings` prop and an `onSetThirdRank` handler (src/components/FlowLayout.jsx:27-28, 115-116), but the controller supplies neither; the rankings are only an input of the seeding engine.

## Model

| member | source | states |
|---|---|---|
| Teams.InitialPools | src/data/teams.js:3-40 | The initial data has exactly the six pools A to F. Each holds four teams. The 24 ids are pairwise distinct, and no team carries a third-place tag. |
| Teams.InitialIdsDistinct | src/data/teams.js:5-38 | The ids of the literal are pairwise distinct across the whole collection. Each id determines its own pool and index. |
| Teams.GetInitialPools | src/data/teams.js:42 | The copy handed out equals the constant pool by pool and is well formed. |
| Teams.AsThird | src/hooks/useSeeding.js:37-40 | A third-place candidate keeps the team's id and name. It gains its pool id and position 3. |
| Teams.ThirdCandidates | src/hooks/useSeeding.js:36-41 | One candidate per pool in key order A to F: that pool's index-2 team, tagged with the pool and position 3. |
| Ranking.Numeric | src/hooks/useSeeding.js:44-45 | Exactly the entries whose rank is a number survive. No entry is invented, and distinct keys stay distinct. For every rank value, the surviving entries of that rank are the rankings' entries of that rank in key order. |
| Ranking.SortByRank | src/hooks/useSeeding.js:46 | The sort returns a permutation of its input: the same length and the same multiset of entries. |
| Ranking.SortSorted | src/hooks/useSeeding.js:46 | The sorted entries are in ascending rank. |
| Ranking.SortIsStable | src/hooks/useSeeding.js:46 | For every rank value, the sort keeps the relative order of the entries of that rank. With `Ranking.Numeric`, this is the order they had in the rankings object. |
| Ranking.TiesKeepKeyOrder | src/hooks/useSeeding.js:44-47 | For every rank value, the qualified entries of that rank are the first entries of that rank in the rankings' key order. |
| Ranking.TieGoesToEarlier | src/hooks/useSeeding.js:44-48 | Of two pools with the same numeric rank, the later one in key order qualifies only if the earlier one does. |
| Ranking.BestThirds | src/hooks/useSeeding.js:43-47 | The best thirds are min(4, number of numeric entries) numeric entries, in ascending rank. Distinct keys give distinct pools. |
| Ranking.QualifiedPools | src/hooks/useSeeding.js:43-48 | The qualified pools are the pool ids of the best thirds, in order. Each comes with its numeric rank from the rankings, and none is repeated. |
| Ranking.BestThirdsAreLowest | src/hooks/useSeeding.js:46-47 | No numerically ranked pool left out has a lower rank than a qualified one. |
| Ranking.FewRankedAllQualify | src/hooks/useSeeding.js:47 | With at most four numeric ranks, every numerically ranked pool qualifies. |
| Seeding.Allowed | src/hooks/useSeeding.js:26-29 | Every host's priority list has three pools, never the host's own pool, and ends with E, F. |
| Seeding.PickPool | src/hooks/useSeeding.js:15-23 | The pick is the first pool of the list that is qualified and unused. There is no pick exactly when no pool of the list is both. |
| Seeding.ResolvePools | src/hooks/useSeeding.js:15-30 | Each host faces nobody or a qualified pool of its own list. No pool serves two hosts. No qualified pool means no opponent at all. |
| Seeding.ResolveIsGreedy | src/hooks/useSeeding.js:15-29 | Hosts resolve in order A1 to D1. Each takes the first pool of its list that is qualified and not used by an earlier host. A host stays empty only when no such pool exists. |
| Seeding.FourQualifiedFillAll | src/hooks/useSeeding.js:26-29 | Any four distinct qualified pools give all four hosts an opponent. |
| Seeding.FilledAtMostQualified | src/hooks/useSeeding.js:15-30 | No more hosts get an opponent than there are distinct qualified pools, so no more than qualified pools when the list has no repeats. |
| Seeding.GetThirdTeam | src/hooks/useSeeding.js:10-13 | The lookup returns the first candidate tagged with the asked pool: every candidate before it carries another tag or none. It returns nothing exactly when no candidate carries that tag. |
| Seeding.ThirdOfPools | src/hooks/useSeeding.js:10-13 | Among the candidates of full pools, the lookup of pool p finds p's index-2 team tagged with p. |
| Seeding.ResolveBestThirdOpponents | src/hooks/useSeeding.js:6-31 | Each host's opponent is the candidate tagged with the pool the greedy assignment picked for it. It is null exactly when there is no pick or no candidate of that pool. Every opponent is a candidate copied from a qualified pool of the host's list. The opponents' pools are pairwise distinct. No qualified pool gives four null opponents. |
| Seeding.DetermineRoundOf16 | src/hooks/useSeeding.js:33-63 | Absent pools give no matches. Otherwise there are eight matches r16_1 to r16_8, none with a winner. |
| Seeding.SeedSlots | src/hooks/useSeeding.js:52-62 | The template holds A1, B1, C1 and D1 against their resolved thirds, plus C2–F2, E1–D2, A2–E2 and F1–B2, in this match order. |
| Seeding.RoundOf16DistinctTeams | src/hooks/useSeeding.js:52-62 | For pools with distinct ids, no team fills two slots of the Round of 16. |
| Seeding.RoundOf16TopTwoOnce | src/hooks/useSeeding.js:53-61 | Every pool's winner and runner-up fills exactly one slot of the Round of 16. |
| Seeding.RoundOf16NoSamePool | src/hooks/useSeeding.js:53-61 | No match pairs two teams of the same pool. |
| Seeding.RoundOf16Hosts | src/hooks/useSeeding.js:50-61 | Each host's match has the host's pool winner first. The opponent is nobody exactly when the greedy assignment gave the host no pool. Otherwise it is the index-2 team of the picked pool, tagged with that pool, and that pool is qualified and on the host's list. |
| Seeding.A1MeetsThirdOfC | src/hooks/useSeeding.js:26-53 | Whenever pool C qualifies, host A1 meets pool C's index-2 team, because C heads A1's list. |
| Seeding.RoundOf16Complete | src/hooks/useSeeding.js:43-62 | With at least four numeric ranks over distinct keys, all sixteen slots are filled: twelve top-two teams plus four best thirds. |
| Seeding.OnlyPoolAOpponents | src/hooks/useSeeding.js:25-30 | With only pool A ranked, only C1 meets a third, pool A's. A1, B1 and D1 face nobody. |
| Seeding.OnlyPoolARanked | src/hooks/useSeeding.js:25-30 | On the initial data with only pool A ranked, C1 faces Chile, tagged with pool A and position 3. |
| Bracket.EmptyQuarterFinals | src/hooks/useSeeding.js:65-72 | Four quarter-finals qf1 to qf4, labelled QF1 to QF4, with no team and no winner. |
| Bracket.EmptySemiFinals | src/hooks/useSeeding.js:74-79 | Two semi-finals sf1 and sf2, labelled SF1 and SF2, with no team and no winner. |
| Bracket.EmptyMatch | src/hooks/useTournament.js:42-43 | The empty final or third-place match: its id, no team, no winner. |
| Bracket.WinnersDistinct | src/hooks/useTournament.js:101-103 | In a complete round with distinct teams whose winners are their matches' own teams, the winners are distinct teams. |
| Progression.InlineThirds | src/hooks/useTournament.js:74-78 | The controller's four thirds are the index-2 teams of pools A to D, tagged with their pools. |
| Progression.InlineRoundOf16 | src/hooks/useTournament.js:80-89 | The controller's Round of 16 has eight matches r16_1 to r16_8, every slot filled, and no winner. |
| Progression.InlineSlots | src/hooks/useTournament.js:74-89 | The sixteen slots, in match order, are A1–C3, C2–D2, D1–D3, B2–C1, B1–A3, F2–E2, E1–B3 and A2–F1, each third tagged with its pool. |
| Progression.InlineThirdsPlay | src/hooks/useTournament.js:74-89 | The third of each of pools A to D plays as a second team in the controller's Round of 16. |
| Progression.InlineNoOtherThirds | src/hooks/useTournament.js:74-89 | For untagged pools, the only tagged teams of the controller's Round of 16 are the thirds of pools A to D. |
| Progression.InlineDistinctTeams | src/hooks/useTournament.js:80-89 | For pools with distinct ids, no team fills two slots of the controller's Round of 16. |
| Progression.InlinePairsPoolDWithItself | src/hooks/useTournament.js:83 | Match r16_3 pairs two teams of pool D: its winner and its third. |
| Progression.BuildQuarterFinals | src/hooks/useTournament.js:100-111 | QFk pairs the winners of Round-of-16 matches 2k and 2k+1. The quarter-finals are named qf1 to qf4 and have no winner. |
| Progression.BuildSemiFinals | src/hooks/useTournament.js:114-122 | SF1 pairs the winners of QF1 and QF2, and SF2 those of QF3 and QF4. Neither has a winner. |
| Progression.Loser | src/hooks/useTournament.js:137-138 | The loser of a played semi-final is one of its two teams. |
| Progression.LoserIsOther | src/hooks/useTournament.js:137-138 | When the two teams differ and the winner is one of them, the loser is exactly the other one. |
| Progression.BuildFinal | src/hooks/useTournament.js:128-135 | The final pairs the two semi-final winners and has no winner. |
| Progression.BuildThirdPlace | src/hooks/useTournament.js:137-145 | The third-place match pairs the two semi-final losers and has no winner. |
| Progression.SemiFinalistsSplit | src/hooks/useTournament.js:125-147 | Each semi-final sends one team to the final and the other to the third-place match. The four teams of those two matches are distinct. |
| PoolStore.Move | src/hooks/useTournament.js:24-26 | Removing index s and inserting at t keeps the length and the multiset. The moved team ends at t, and every index holds the element its shifted source names. |
| PoolStore.MoveToSelf | src/hooks/useTournament.js:24-26 | Moving a team onto its own index changes nothing. |
| PoolStore.MoveRoundTrip | src/hooks/useTournament.js:24-26 | Moving s to t and then t back to s restores the pool. |
| PoolStore.MoveFirstToLast | src/hooks/useTournament.js:24-26 | [a,b,c,d] with 0 to 3 becomes [b,c,d,a], and 3 to 0 brings it back. |
| PoolStore.ReorderTeam | src/hooks/useTournament.js:21-30 | The reorder keeps the set of pools, the reordered pool's length and its multiset of teams. Every other pool is unchanged. |
| PoolStore.ReorderKeepsWellFormed | src/hooks/useTournament.js:21-30 | After a reorder, every pool still has four teams and no id appears twice. |
| PoolStore.ReorderBack | src/hooks/useTournament.js:21-30 | Reordering s to t and then t to s restores all pools. |
| PoolStore.ReorderKeepsUntagged | src/hooks/useTournament.js:21-30 | A reorder only moves teams, so pools without third-place tags stay without them and `Progression.InlineNoOtherThirds` still applies after it. |
| Tournament.Mounting | src/hooks/useTournament.js:10-18 | The first render holds the initial pools, empty rounds, `{}` (`Unset`) for the final and the third-place match, and no champion. |
| Tournament.UpdateMatch | src/hooks/useTournament.js:49-50 | Every match with the given id gets the winner, and all its other fields are kept. Every other match is unchanged. |
| Tournament.ClearWinners | src/hooks/useTournament.js:39 | Every match loses its winner and keeps its id, label and pairing. |
| Tournament.PoolsEffect | src/hooks/useTournament.js:73-97 | On a pools change, the Round of 16 becomes the inline draw of the committed pools. While no quarter-finals exist, the later rounds are also laid out empty and the quarter-finals and semi-finals are marked changed; otherwise only the Round of 16 changes. Nothing else is written. |
| Tournament.QuarterFinalsEffect | src/hooks/useTournament.js:99-111 | When the Round of 16 is complete, the quarter-finals are rebuilt from its winners and marked changed; otherwise nothing changes. |
| Tournament.SemiFinalsEffect | src/hooks/useTournament.js:113-122 | When the quarter-finals are complete, the semi-finals are rebuilt from their winners and marked changed; otherwise nothing changes. |
| Tournament.FinalEffect | src/hooks/useTournament.js:124-147 | When the semi-finals are complete, the final and the third-place match are rebuilt from them, and no dependency is set; otherwise nothing changes. It needs each semi-final's team1 present, as the code dereferences it. |
| Tournament.Pass | src/hooks/useTournament.js:73-147 | No effect writes the pools or the champion. A pass only sets dependencies further down the chain than the ones it consumed. |
| Tournament.Settle | src/hooks/useTournament.js:73-147 | The effects settle. They keep the pools and the champion, and leave the semi-finals readable by the final's effect. |
| Tournament.InitState | src/hooks/useTournament.js:73-97 | After mount, the state is the initial pools, their controller Round of 16, empty later rounds and no champion. |
| Tournament.InitInv | src/hooks/useTournament.js:10-97 | The state after mount satisfies the invariant. |
| Tournament.SettleKeepsInv | src/hooks/useTournament.js:73-147 | The effects keep the invariant: well-formed pools, named rounds, winners taken from their own match and no team twice in a round. |
| Tournament.StepKeepsInv | src/hooks/useTournament.js:21-147 | Every operation the views allow keeps the invariant, and can run without dereferencing a missing team. |
| Tournament.InitDrawn | src/hooks/useTournament.js:73-97 | After mount, the Round of 16 is the draw of the initial pools. |
| Tournament.StepKeepsDrawn | src/hooks/useTournament.js:21-97 | After every operation, the Round of 16 is the draw of the current pools up to its winners. A pools change redraws it; a bracket reset or a Round-of-16 pick changes only winners. |
| Tournament.ClearAfterUpdate | src/hooks/useTournament.js:39-54 | Recording a Round-of-16 winner and then clearing all winners gives the cleared round back. |
| Tournament.ResetBracketResult | src/hooks/useTournament.js:38-45 | Resetting the bracket keeps the Round-of-16 pairings without winners. It empties the later rounds and the champion, and leaves no round complete. |
| Tournament.ResetBracketIdempotent | src/hooks/useTournament.js:38-45 | Resetting the bracket twice gives the state of resetting it once. |
| Tournament.UnknownStageIsNoOp | src/hooks/useTournament.js:52-69 | A stage string the switch does not know changes nothing. |
| Tournament.FinalSelection | src/hooks/useTournament.js:62-65 | Picking the final's winner records it and makes that team champion. Nothing else changes. |
| Tournament.ThirdPlaceSelection | src/hooks/useTournament.js:66-68 | Picking the third-place winner records it. Nothing else changes. |
| Tournament.ChampionChanges | src/hooks/useTournament.js:38-69 | Only picking the final's winner (which sets it) and resetting the bracket (which clears it) touch the champion. |
| Tournament.RoundOf16Selection | src/hooks/useTournament.js:99-111 | A Round-of-16 pick is recorded. If it completes the round, the quarter-finals are rebuilt from the winners; otherwise nothing else changes. |
| Tournament.QuarterFinalSelection | src/hooks/useTournament.js:113-122 | A quarter-final pick is recorded. If it completes the round, the semi-finals are rebuilt; otherwise nothing else changes. |
| Tournament.SemiFinalSelection | src/hooks/useTournament.js:124-147 | A semi-final pick is recorded. If it completes the round, the final and third-place match are rebuilt without winners, but the champion is kept. |
| Tournament.ReorderAfterMount | src/hooks/useTournament.js:73-97 | After mount, a reorder redraws only the Round of 16 from the new pools. The later rounds and the champion are kept. |
| Tournament.ResetPoolsAfterMount | src/hooks/useTournament.js:33-35 | After mount, resetting the pools restores the initial pools and redraws only the Round of 16. |
| Tournament.ReorderRoundTrip | src/hooks/useTournament.js:21-30 | Once the later rounds exist, a drag from i to j and back restores the pools and redraws the Round of 16 from them. In a state whose Round of 16 follows the pools, only the Round-of-16 winners are lost. |

The completion flags `IsRoundOf16Complete`, `IsQuarterFinalsComplete` and `IsSemiFinalsComplete` (`useTournament.js:166-168`) are defined as "expected length and every winner present", through `Bracket.Complete`. `useTournament.js` has its own copies of the empty quarter-final and semi-final templates (`useTournament.js:173-187`). They are the same values as those of `useSeeding.js` and share one definition here.

## Left out

- React's scheduling and rendering are not modelled. Each commit runs the effects whose dependencies changed, in declaration order, on the committed state. Renders in between and the hook's return object are not modelled.
- The views (`src/components`) are not part of this model. Their gating is the precondition `Tournament.ValidAction`:
  - a winner can only be picked in a match whose two teams are known;
  - the pick must be one of those two teams.

  Only the invariant lemmas use it. The operations themselves are total. The views' round-level `canSelect` flag is not modelled.
- Out-of-range drag indices are not modelled. JavaScript's `splice` behaviour there is excluded by the precondition `Tournament.Applicable`, which requires indices inside the pool.
- A team is its `id` plus its `name`. The flag, colour and points fields are display payload that no logic reads.
- A rank that is not a number, including a missing one, is `None`. Numeric ranks are integers, so NaN, infinities and fractional ranks are not modelled. Rankings keys are pool ids. The object's key order is the order of the entry sequence.
- Teams.ThirdCandidates: `.filter(Boolean)` never removes a candidate, because the spread always yields an object. For a pool without an index-2 team, the code still yields a candidate `{poolId, position: 3}` with no id or name; the model has no such team value. Every caller requires all six pools with four teams, so that case does not arise.
- Progression.BuildThirdPlace: the final's effect dereferences `team1` of each semi-final. The model requires that to be present (`LosersReadable`) rather than modelling the exception JavaScript raises when it is null. The invariant shows it always holds.
- The pre-mount `{}` values of `final` and `thirdPlace` are modelled as a match with empty id and label (`Tournament.Unset`). It is overwritten by the mount-time effect.
- `thirdRankings || {}` is modelled as the rankings sequence itself. An absent rankings object is the empty sequence.
- The seeding engine is not called by the controller, so no lemma connects the two Round-of-16 derivations beyond their separate properties.

=== FILE: bracket.dfy ===
/**
 Matches and rounds of the knockout stage, shared by the seeding engine and the
 tournament controller: a match has two team slots and a winner slot, each of
 which may be empty; a round is an ordered sequence of matches.
 */
module Bracket {
  import opened Optional
  import opened Teams

  /** A match; `caption` is the display label of the match. */
  datatype Match = Match(id: string, caption: string, team1: Option<Team>, team2: Option<Team>, winner: Option<Team>)

  /** The id and the caption of one match of a round. */
  datatype Name = Name(id: string, caption: string)

  const RoundOf16Names: seq<Name> := [
    Name("r16_1", "Match 1"), Name("r16_2", "Match 2"), Name("r16_3", "Match 3"), Name("r16_4", "Match 4"),
    Name("r16_5", "Match 5"), Name("r16_6", "Match 6"), Name("r16_7", "Match 7"), Name("r16_8", "Match 8")
  ]
  const QuarterFinalNames: seq<Name> := [Name("qf1", "QF1"), Name("qf2", "QF2"), Name("qf3", "QF3"), Name("qf4", "QF4")]
  const SemiFinalNames: seq<Name> := [Name("sf1", "SF1"), Name("sf2", "SF2")]
  const FinalName := Name("final", "Final")
  const ThirdPlaceName := Name("third", "3rd Place")

  /** The team slots of a round, two per match, in match order. */
  function Slots(ms: seq<Match>): (r: seq<Option<Team>>)
    ensures |r| == 2 * |ms|
    ensures forall i :: 0 <= i < |ms| ==> r[2 * i] == ms[i].team1 && r[2 * i + 1] == ms[i].team2
  {
    if ms == [] then []
    else
      var rest := Slots(ms[1..]);
      ConsPairs(ms, ms[1..], rest);
      [ms[0].team1, ms[0].team2] + rest
  }

  /** Putting the first match's two teams in front of the slots of the others gives the slots of all. */
  lemma ConsPairs(ms: seq<Match>, tail: seq<Match>, rest: seq<Option<Team>>)
    requires ms != [] && tail == ms[1..] && |rest| == 2 * |tail|
    requires forall i :: 0 <= i < |tail| ==> rest[2 * i] == tail[i].team1 && rest[2 * i + 1] == tail[i].team2
    ensures forall i :: 0 <= i < |ms| ==>
      ([ms[0].team1, ms[0].team2] + rest)[2 * i] == ms[i].team1 && ([ms[0].team1, ms[0].team2] + rest)[2 * i + 1] == ms[i].team2
  {
    var r := [ms[0].team1, ms[0].team2] + rest;
    forall i | 0 <= i < |ms| ensures r[2 * i] == ms[i].team1 && r[2 * i + 1] == ms[i].team2 {
      if i > 0 {
        assert tail[i - 1] == ms[i];
        assert r[2 * i] == rest[2 * (i - 1)] && r[2 * i + 1] == rest[2 * (i - 1) + 1];
      }
    }
  }

  /** A round not yet played: the named matches, filled pairwise from `slots`, no winner anywhere. */
  function Round(names: seq<Name>, slots: seq<Option<Team>>): (r: seq<Match>)
    requires |slots| == 2 * |names|
    ensures |r| == |names|
    ensures Slots(r) == slots
    ensures forall i :: 0 <= i < |r| ==> r[i].id == names[i].id && r[i].caption == names[i].caption
    ensures Unplayed(r)
  {
    var r := seq(|names|, i requires 0 <= i < |names| => Match(names[i].id, names[i].caption, slots[2 * i], slots[2 * i + 1], None));
    SlotsOfPairs(r, slots);
    r
  }

  /** A round whose matches carry `slots[2 i]` and `slots[2 i + 1]` has exactly those slots. */
  lemma {:induction false} SlotsOfPairs(ms: seq<Match>, slots: seq<Option<Team>>)
    requires |slots| == 2 * |ms|
    requires forall i :: 0 <= i < |ms| ==> ms[i].team1 == slots[2 * i] && ms[i].team2 == slots[2 * i + 1]
    ensures Slots(ms) == slots
  {
    if ms != [] {
      var tail := slots[2..];
      forall i | 0 <= i < |ms| - 1 ensures ms[1..][i].team1 == tail[2 * i] && ms[1..][i].team2 == tail[2 * i + 1] {
        assert ms[1..][i] == ms[i + 1];
        assert tail[2 * i] == slots[2 * (i + 1)] && tail[2 * i + 1] == slots[2 * (i + 1) + 1];
      }
      SlotsOfPairs(ms[1..], tail);
      assert slots == [slots[0], slots[1]] + tail;
    }
  }

  ghost predicate Unplayed(ms: seq<Match>) {
    forall i :: 0 <= i < |ms| ==> ms[i].winner.None?
  }

  /** A round of `n` matches each of which has a recorded winner. */
  predicate Complete(ms: seq<Match>, n: nat) {
    |ms| == n && forall i :: 0 <= i < |ms| ==> ms[i].winner.Some?
  }

  /** The winners of a complete round, in match order. */
  function Winners(ms: seq<Match>): (r: seq<Team>)
    requires forall i :: 0 <= i < |ms| ==> ms[i].winner.Some?
    ensures |r| == |ms|
    ensures forall i :: 0 <= i < |ms| ==> Some(r[i]) == ms[i].winner
  {
    seq(|ms|, i requires 0 <= i < |ms| => ms[i].winner.value)
  }

  function EmptySlots(n: nat): (r: seq<Option<Team>>)
    ensures |r| == n && forall j :: 0 <= j < n ==> r[j].None?
  {
    seq(n, _ => None)
  }

  function FilledSlots(ts: seq<Team>): (r: seq<Option<Team>>)
    ensures |r| == |ts| && forall j :: 0 <= j < |ts| ==> r[j] == Some(ts[j])
  {
    seq(|ts|, j requires 0 <= j < |ts| => Some(ts[j]))
  }

  function EmptyQuarterFinals(): (r: seq<Match>)
    ensures |r| == 4 && Unplayed(r)
    ensures [r[0].id, r[1].id, r[2].id, r[3].id] == ["qf1", "qf2", "qf3", "qf4"]
    ensures [r[0].caption, r[1].caption, r[2].caption, r[3].caption] == ["QF1", "QF2", "QF3", "QF4"]
    ensures forall j :: 0 <= j < 8 ==> Slots(r)[j].None?
  {
    Round(QuarterFinalNames, EmptySlots(8))
  }

  function EmptySemiFinals(): (r: seq<Match>)
    ensures |r| == 2 && Unplayed(r)
    ensures [r[0].id, r[1].id] == ["sf1", "sf2"] && [r[0].caption, r[1].caption] == ["SF1", "SF2"]
    ensures forall j :: 0 <= j < 4 ==> Slots(r)[j].None?
  {
    Round(SemiFinalNames, EmptySlots(4))
  }

  function EmptyMatch(n: Name): (r: Match)
    ensures r.id == n.id && r.team1.None? && r.team2.None? && r.winner.None?
  {
    Match(n.id, n.caption, None, None, None)
  }

  /** A match whose winner, when recorded, is one of its two present teams. */
  ghost predicate Sound(m: Match) {
    m.winner.Some? ==> m.team1.Some? && m.team2.Some? && (m.winner == m.team1 || m.winner == m.team2)
  }

  ghost predicate AllSound(ms: seq<Match>) {
    forall i :: 0 <= i < |ms| ==> Sound(ms[i])
  }

  /** No team id occupies two filled slots. */
  ghost predicate DistinctSlots(slots: seq<Option<Team>>) {
    forall i, j :: 0 <= i < |slots| && 0 <= j < |slots| && i != j && slots[i].Some? && slots[j].Some?
      ==> slots[i].value.id != slots[j].value.id
  }

  ghost predicate DistinctTeams(ts: seq<Team>) {
    forall i, j :: 0 <= i < |ts| && 0 <= j < |ts| && i != j ==> ts[i].id != ts[j].id
  }

  /** In a complete round whose slots carry distinct teams and whose winners are
      their matches' own teams, the winners are distinct teams too. */
  lemma {:induction false} WinnersDistinct(ms: seq<Match>)
    requires forall i :: 0 <= i < |ms| ==> ms[i].winner.Some?
    requires AllSound(ms)
    requires DistinctSlots(Slots(ms))
    ensures DistinctTeams(Winners(ms))
  {
    var w := Winners(ms);
    var s := Slots(ms);
    forall i, j | 0 <= i < |w| && 0 <= j < |w| && i != j
      ensures w[i].id != w[j].id
    {
      var a := if ms[i].winner == ms[i].team1 then 2 * i else 2 * i + 1;
      var b := if ms[j].winner == ms[j].team1 then 2 * j else 2 * j + 1;
      assert s[a] == Some(w[i]) && s[b] == Some(w[j]);
    }
  }

  /** Slots that are, one for one, the winners of a complete sound round with
      distinct teams hold distinct teams. */
  lemma {:induction false} WinnerSlotsDistinct(ms: seq<Match>, slots: seq<Option<Team>>)
    requires forall i :: 0 <= i < |ms| ==> ms[i].winner.Some?
    requires AllSound(ms) && DistinctSlots(Slots(ms))
    requires |slots| == |ms| && forall j :: 0 <= j < |ms| ==> slots[j] == ms[j].winner
    ensures DistinctSlots(slots)
  {
    WinnersDistinct(ms);
    var w := Winners(ms);
    assert forall j :: 0 <= j < |ms| ==> slots[j] == Some(w[j]);
  }

  /** A place of the pools: a pool and an index into it. */
  type Place = (PoolId, nat)

  /** Every filled slot holds the team standing at its place, and only places fill slots. */
  ghost predicate AtPlaces(slots: seq<Option<Team>>, pl: seq<Option<Place>>, pools: Pools)
    requires Shaped(pools)
  {
    |slots| == |pl| && forall j :: 0 <= j < |pl| ==> SlotAt(slots[j], pl[j], pools)
  }

  /** A slot is filled exactly when it has a place, and then holds the team standing there. */
  ghost predicate SlotAt(o: Option<Team>, pl: Option<Place>, pools: Pools)
    requires Shaped(pools)
  {
    && (o.Some? <==> pl.Some?)
    && (pl.Some? ==> pl.value.1 < PoolSize && o.value.id == pools[pl.value.0][pl.value.1].id)
  }

  /** No place serves two slots. */
  ghost predicate PlacesDistinct(pl: seq<Option<Place>>) {
    forall i, j :: 0 <= i < |pl| && 0 <= j < |pl| && i != j && pl[i].Some? && pl[j].Some? ==> pl[i] != pl[j]
  }

  /** The two places of every match lie in different pools. */
  ghost predicate PlacesOpposite(pl: seq<Option<Place>>) {
    forall m :: 0 <= m < |pl| / 2 && pl[2 * m].Some? && pl[2 * m + 1].Some? ==> pl[2 * m].value.0 != pl[2 * m + 1].value.0
  }

  /** Slots filled from pairwise different places of pools with distinct ids hold distinct teams. */
  lemma DistinctByPlaces(slots: seq<Option<Team>>, pl: seq<Option<Place>>, pools: Pools)
    requires WellFormed(pools)
    requires AtPlaces(slots, pl, pools)
    requires PlacesDistinct(pl)
    ensures DistinctSlots(slots)
  {
    forall i, j | 0 <= i < |slots| && 0 <= j < |slots| && i != j && slots[i].Some? && slots[j].Some?
      ensures slots[i].value.id != slots[j].value.id
    {
      var (p, k) := pl[i].value;
      var (q, l) := pl[j].value;
      assert pools[p][k].id != pools[q][l].id;
    }
  }

  /** Matches whose two slots come from places in different pools never pair two teams of one pool. */
  lemma {:induction false} OpposedNoSamePool(r: seq<Match>, pl: seq<Option<Place>>, pools: Pools)
    requires WellFormed(pools)
    requires AtPlaces(Slots(r), pl, pools) && PlacesOpposite(pl)
    ensures forall m, p :: 0 <= m < |r| && r[m].team1.Some? && r[m].team2.Some? ==>
              !(InPool(pools, p, r[m].team1.value.id) && InPool(pools, p, r[m].team2.value.id))
  {
    var slots := Slots(r);
    forall m, p | 0 <= m < |r| && r[m].team1.Some? && r[m].team2.Some?
      ensures !(InPool(pools, p, r[m].team1.value.id) && InPool(pools, p, r[m].team2.value.id))
    {
      assert slots[2 * m] == r[m].team1 && slots[2 * m + 1] == r[m].team2;
      var (p1, k1) := pl[2 * m].value;
      var (p2, k2) := pl[2 * m + 1].value;
      assert m < |pl| / 2;
      PlaceDeterminesPool(pools, p, p1, k1, r[m].team1.value.id);
      PlaceDeterminesPool(pools, p, p2, k2, r[m].team2.value.id);
    }
  }

  /** In pools with distinct ids, the id of the team at (q, k) belongs to pool q alone. */
  lemma PlaceDeterminesPool(pools: Pools, p: PoolId, q: PoolId, k: nat, id: string)
    requires WellFormed(pools) && k < PoolSize && id == pools[q][k].id
    ensures InPool(pools, p, id) ==> p == q
  {
    if InPool(pools, p, id) {
      var l :| 0 <= l < |pools[p]| && pools[p][l].id == id;
    }
  }
}

=== FILE: optional.dfy ===
/** The nullable slot of the JavaScript objects (`null` / a value). */
module Optional {

  datatype Option<+T> = None | Some(value: T)
}

=== FILE: poolstore.dfy ===
/**
 Drag-and-drop reordering of the pool standings: a team is removed from its index
 and re-inserted at the target index of the same pool.
 */
module PoolStore {
  import opened Teams

  /** Where the element at index `i` after moving `s` to `t` came from. */
  function MoveSource(s: nat, t: nat, i: nat): nat {
    if i == t then s
    else if s < t && s <= i < t then i + 1
    else if t < s && t < i <= s then i - 1
    else i
  }

  /** Removes the element at `s` and inserts it so that it ends at index `t`. */
  function Move<T>(xs: seq<T>, s: nat, t: nat): (r: seq<T>)
    requires s < |xs| && t < |xs|
    ensures |r| == |xs|
    ensures multiset(r) == multiset(xs)
    ensures r[t] == xs[s]
    ensures forall i :: 0 <= i < |r| ==> MoveSource(s, t, i) < |xs| && r[i] == xs[MoveSource(s, t, i)]
  {
    var rest := xs[..s] + xs[s + 1..];
    var r := rest[..t] + [xs[s]] + rest[t..];
    SpliceMultiset(xs, s, t);
    SpliceIndex(xs, s, t);
    r
  }

  lemma SpliceMultiset<T>(xs: seq<T>, s: nat, t: nat)
    requires s < |xs| && t < |xs|
    ensures var rest := xs[..s] + xs[s + 1..];
            multiset(rest[..t] + [xs[s]] + rest[t..]) == multiset(xs)
  {
    var rest := xs[..s] + xs[s + 1..];
    assert xs == xs[..s] + [xs[s]] + xs[s + 1..];
    assert rest == rest[..t] + rest[t..];
    calc {
      multiset(rest[..t] + [xs[s]] + rest[t..]);
      multiset(rest[..t]) + multiset{xs[s]} + multiset(rest[t..]);
      multiset(rest) + multiset{xs[s]};
      multiset(xs[..s]) + multiset(xs[s + 1..]) + multiset{xs[s]};
      multiset(xs);
    }
  }

  lemma SpliceIndex<T>(xs: seq<T>, s: nat, t: nat)
    requires s < |xs| && t < |xs|
    ensures var rest := xs[..s] + xs[s + 1..];
            var r := rest[..t] + [xs[s]] + rest[t..];
            forall i :: 0 <= i < |r| ==> MoveSource(s, t, i) < |xs| && r[i] == xs[MoveSource(s, t, i)]
  {
    var rest := xs[..s] + xs[s + 1..];
    var r := rest[..t] + [xs[s]] + rest[t..];
    forall i | 0 <= i < |r| ensures MoveSource(s, t, i) < |xs| && r[i] == xs[MoveSource(s, t, i)] {
      if i < t {
        assert r[i] == rest[i];
      } else if i > t {
        assert r[i] == rest[i - 1];
      }
    }
  }

  /** Moving an element onto its own index changes nothing. */
  lemma MoveToSelf<T>(xs: seq<T>, s: nat)
    requires s < |xs|
    ensures Move(xs, s, s) == xs
  {
    var r := Move(xs, s, s);
    assert forall i :: 0 <= i < |r| ==> r[i] == xs[i];
  }

  /** Moving `s` to `t` and then `t` back to `s` restores the sequence. */
  lemma MoveRoundTrip<T>(xs: seq<T>, s: nat, t: nat)
    requires s < |xs| && t < |xs|
    ensures Move(Move(xs, s, t), t, s) == xs
  {
    var ys := Move(xs, s, t);
    var zs := Move(ys, t, s);
    forall i | 0 <= i < |zs| ensures zs[i] == xs[i] {
      SourceRoundTrip(s, t, i);
    }
  }

  /** The source maps of a move and of its reverse are inverse to each other. */
  lemma SourceRoundTrip(s: nat, t: nat, i: nat)
    ensures MoveSource(s, t, MoveSource(t, s, i)) == i
  {
  }

  /** Distinct indices come from distinct sources. */
  lemma MoveSourceInjective(s: nat, t: nat, i: nat, j: nat)
    requires i != j
    ensures MoveSource(s, t, i) != MoveSource(s, t, j)
  {
  }

  /** The first team of four dragged to the last place, and back. */
  lemma MoveFirstToLast()
    ensures Move(['a', 'b', 'c', 'd'], 0, 3) == ['b', 'c', 'd', 'a']
    ensures Move(['b', 'c', 'd', 'a'], 3, 0) == ['a', 'b', 'c', 'd']
  {
    var xs := ['a', 'b', 'c', 'd'];
    FirstToLast(xs);
    MoveRoundTrip(xs, 0, 3);
  }

  lemma FirstToLast<T>(xs: seq<T>)
    requires |xs| == 4
    ensures Move(xs, 0, 3) == [xs[1], xs[2], xs[3], xs[0]]
  {
    var r := Move(xs, 0, 3);
    assert MoveSource(0, 3, 0) == 1 && MoveSource(0, 3, 1) == 2 && MoveSource(0, 3, 2) == 3 && MoveSource(0, 3, 3) == 0;
  }

  /** The reorder of pool `p`: only that pool changes, by a move. */
  function ReorderTeam(pools: Pools, p: PoolId, s: nat, t: nat): (r: Pools)
    requires p in pools && s < |pools[p]| && t < |pools[p]|
    ensures r.Keys == pools.Keys
    ensures |r[p]| == |pools[p]| && multiset(r[p]) == multiset(pools[p])
    ensures r[p][t] == pools[p][s]
    ensures forall q :: q in pools && q != p ==> r[q] == pools[q]
  {
    pools[p := Move(pools[p], s, t)]
  }

  /** Reordering keeps the pools well formed: still four teams each and no id twice. */
  lemma ReorderKeepsWellFormed(pools: Pools, p: PoolId, s: nat, t: nat)
    requires WellFormed(pools) && s < |pools[p]| && t < |pools[p]|
    ensures WellFormed(ReorderTeam(pools, p, s, t))
  {
    var r: Pools := ReorderTeam(pools, p, s, t);
    forall q: PoolId, u: PoolId, i: int, j: int | q in r && u in r && 0 <= i < |r[q]| && 0 <= j < |r[u]| && (q != u || i != j)
      ensures r[q][i].id != r[u][j].id
    {
      var i' := if q == p then MoveSource(s, t, i) else i;
      var j' := if u == p then MoveSource(s, t, j) else j;
      assert r[q][i] == pools[q][i'] && r[u][j] == pools[u][j'];
      if q == u && q == p {
        MoveSourceInjective(s, t, i, j);
      }
    }
  }

  /** Reordering keeps the pools free of third-place tags. */
  lemma ReorderKeepsUntagged(pools: Pools, p: PoolId, s: nat, t: nat)
    requires Untagged(pools) && p in pools && s < |pools[p]| && t < |pools[p]|
    ensures Untagged(ReorderTeam(pools, p, s, t))
  {
    var r: Pools := ReorderTeam(pools, p, s, t);
    forall q: PoolId, i: int | q in r && 0 <= i < |r[q]| ensures r[q][i].mark.None? {
      if q == p {
        assert r[q][i] == pools[p][MoveSource(s, t, i)];
      }
    }
  }

  /** Reordering pool `p` from `s` to `t` and then from `t` to `s` restores the pools. */
  lemma ReorderBack(pools: Pools, p: PoolId, s: nat, t: nat)
    requires p in pools && s < |pools[p]| && t < |pools[p]|
    ensures ReorderTeam(ReorderTeam(pools, p, s, t), p, t, s) == pools
  {
    MoveRoundTrip(pools[p], s, t);
    var back := ReorderTeam(ReorderTeam(pools, p, s, t), p, t, s);
    assert forall q :: q in back ==> back[q] == pools[q];
  }
}

=== FILE: progression.dfy ===
/**
 The round builders of the tournament controller: its own Round of 16, drawn from
 pool positions alone, and the quarter-finals, semi-finals, final and third-place
 match, each built from the winners of the round before once it is complete.
 */
module Progression {
  import opened Optional
  import opened Teams
  import opened Bracket

  /** The third-place candidates of the first four pools in key order (A to D). */
  function InlineThirds(pools: Pools): (r: seq<Team>)
    requires Shaped(pools)
    ensures |r| == 4
    ensures forall i :: 0 <= i < 4 ==> r[i] == AsThird(pools[PoolOrder[i]][2], PoolOrder[i])
  {
    ThirdCandidates(pools)[..4]
  }

  /** The controller's Round of 16: fixed pairings of pool positions, with the
      thirds of pools A to D whatever any ranking says. */
  function InlineRoundOf16(pools: Pools): (r: seq<Match>)
    requires Shaped(pools)
    ensures |r| == 8 && Unplayed(r)
    ensures forall i :: 0 <= i < 8 ==> r[i].id == RoundOf16Names[i].id && r[i].caption == RoundOf16Names[i].caption
    ensures forall j :: 0 <= j < 16 ==> Slots(r)[j].Some?
  {
    var thirds := InlineThirds(pools);
    var slots := [
      Some(pools[A][0]), Some(thirds[2]),
      Some(pools[C][1]), Some(pools[D][1]),
      Some(pools[D][0]), Some(thirds[3]),
      Some(pools[B][1]), Some(pools[C][0]),
      Some(pools[B][0]), Some(thirds[0]),
      Some(pools[F][1]), Some(pools[E][1]),
      Some(pools[E][0]), Some(thirds[1]),
      Some(pools[A][1]), Some(pools[F][0])
    ];
    assert forall j :: 0 <= j < 16 ==> slots[j].Some?;
    Round(RoundOf16Names, slots)
  }

  /** The places the controller's sixteen slots are taken from. */
  const InlinePlaces: seq<Option<Place>> := [
    Some((A, 0)), Some((C, 2)), Some((C, 1)), Some((D, 1)),
    Some((D, 0)), Some((D, 2)), Some((B, 1)), Some((C, 0)),
    Some((B, 0)), Some((A, 2)), Some((F, 1)), Some((E, 1)),
    Some((E, 0)), Some((B, 2)), Some((A, 1)), Some((F, 0))
  ]

  /** The controller's Round of 16 holds the literal pairing in match order. */
  lemma InlineSlots(pools: Pools)
    requires Shaped(pools)
    ensures InlineLiteral(pools, Slots(InlineRoundOf16(pools)))
  {
    var thirds := InlineThirds(pools);
    assert thirds[0] == AsThird(pools[A][2], A) && thirds[1] == AsThird(pools[B][2], B);
    assert thirds[2] == AsThird(pools[C][2], C) && thirds[3] == AsThird(pools[D][2], D);
  }

  /** The sixteen slots of the controller's Round of 16 as the teams they hold. */
  ghost predicate InlineLiteral(pools: Pools, slots: seq<Option<Team>>)
    requires Shaped(pools)
  {
    slots == [
      Some(pools[A][0]), Some(AsThird(pools[C][2], C)),
      Some(pools[C][1]), Some(pools[D][1]),
      Some(pools[D][0]), Some(AsThird(pools[D][2], D)),
      Some(pools[B][1]), Some(pools[C][0]),
      Some(pools[B][0]), Some(AsThird(pools[A][2], A)),
      Some(pools[F][1]), Some(pools[E][1]),
      Some(pools[E][0]), Some(AsThird(pools[B][2], B)),
      Some(pools[A][1]), Some(pools[F][0])
    ]
  }

  lemma InlineAtPlaces(pools: Pools)
    requires Shaped(pools)
    ensures AtPlaces(Slots(InlineRoundOf16(pools)), InlinePlaces, pools)
  {
    InlineSlots(pools);
    LiteralAtInlinePlaces(pools, Slots(InlineRoundOf16(pools)));
  }

  lemma LiteralAtInlinePlaces(pools: Pools, slots: seq<Option<Team>>)
    requires Shaped(pools) && InlineLiteral(pools, slots)
    ensures AtPlaces(slots, InlinePlaces, pools)
  {
  }

  /** The slot each place of the controller's template serves: a left inverse of the places. */
  function InlineSlotOf(pl: Place): int {
    match pl
    case (A, 0) => 0  case (C, 2) => 1  case (C, 1) => 2  case (D, 1) => 3
    case (D, 0) => 4  case (D, 2) => 5  case (B, 1) => 6  case (C, 0) => 7
    case (B, 0) => 8  case (A, 2) => 9  case (F, 1) => 10 case (E, 1) => 11
    case (E, 0) => 12 case (B, 2) => 13 case (A, 1) => 14 case (F, 0) => 15
    case _ => -1
  }

  lemma InlinePlacesDistinct()
    ensures PlacesDistinct(InlinePlaces)
  {
    forall j | 0 <= j < |InlinePlaces|
      ensures InlinePlaces[j].Some? && InlineSlotOf(InlinePlaces[j].value) == j
    {
    }
  }

  /** The third of each of the first four pools plays in the controller's Round of 16,
      as the index-2 team of its pool with its fields kept and tagged with the pool. */
  lemma InlineThirdsPlay(pools: Pools)
    requires Shaped(pools)
    ensures var r := InlineRoundOf16(pools);
            forall i :: 0 <= i < 4 ==>
              exists m :: 0 <= m < 8 && r[m].team2 == Some(AsThird(pools[PoolOrder[i]][2], PoolOrder[i]))
  {
    var r := InlineRoundOf16(pools);
    var slots := Slots(r);
    InlineSlots(pools);
    LiteralThirds(pools, slots);
    forall i | 0 <= i < 4
      ensures exists m :: 0 <= m < 8 && r[m].team2 == Some(AsThird(pools[PoolOrder[i]][2], PoolOrder[i]))
    {
      var m := if i == 0 then 4 else if i == 1 then 6 else if i == 2 then 0 else 2;
      assert r[m].team2 == slots[2 * m + 1];
    }
  }

  /** When the pools carry no tagged team, the only thirds of the controller's Round
      of 16 are those of the first four pools. */
  lemma InlineNoOtherThirds(pools: Pools)
    requires Shaped(pools) && Untagged(pools)
    ensures var slots := Slots(InlineRoundOf16(pools));
            forall j :: 0 <= j < |slots| && slots[j].Some? && slots[j].value.mark.Some? ==>
              exists i :: 0 <= i < 4 && slots[j] == Some(AsThird(pools[PoolOrder[i]][2], PoolOrder[i]))
  {
    InlineSlots(pools);
    LiteralThirds(pools, Slots(InlineRoundOf16(pools)));
  }

  lemma LiteralThirds(pools: Pools, slots: seq<Option<Team>>)
    requires Shaped(pools) && InlineLiteral(pools, slots)
    ensures slots[9] == Some(AsThird(pools[PoolOrder[0]][2], PoolOrder[0]))
    ensures slots[13] == Some(AsThird(pools[PoolOrder[1]][2], PoolOrder[1]))
    ensures slots[1] == Some(AsThird(pools[PoolOrder[2]][2], PoolOrder[2]))
    ensures slots[5] == Some(AsThird(pools[PoolOrder[3]][2], PoolOrder[3]))
    ensures Untagged(pools) ==>
              forall j :: 0 <= j < |slots| && slots[j].Some? && slots[j].value.mark.Some? ==>
                exists i :: 0 <= i < 4 && slots[j] == Some(AsThird(pools[PoolOrder[i]][2], PoolOrder[i]))
  {
    if Untagged(pools) {
      forall j | 0 <= j < |slots| && slots[j].Some? && slots[j].value.mark.Some?
        ensures exists i :: 0 <= i < 4 && slots[j] == Some(AsThird(pools[PoolOrder[i]][2], PoolOrder[i]))
      {
        assert j in {1, 5, 9, 13};
        var i := if j == 9 then 0 else if j == 13 then 1 else if j == 1 then 2 else 3;
        assert slots[j] == Some(AsThird(pools[PoolOrder[i]][2], PoolOrder[i]));
      }
    }
  }

  /** For pools with distinct ids, no team sits in two slots of the controller's Round of 16. */
  lemma InlineDistinctTeams(pools: Pools)
    requires WellFormed(pools)
    ensures DistinctSlots(Slots(InlineRoundOf16(pools)))
  {
    InlineAtPlaces(pools);
    InlinePlacesDistinct();
    DistinctByPlaces(Slots(InlineRoundOf16(pools)), InlinePlaces, pools);
  }

  /** Unlike the seeding engine's template, the controller's third match pairs the
      winner of pool D with pool D's own third. */
  lemma InlinePairsPoolDWithItself(pools: Pools)
    requires Shaped(pools)
    ensures var m := InlineRoundOf16(pools)[2];
            && m.id == "r16_3"
            && InPool(pools, D, m.team1.value.id) && InPool(pools, D, m.team2.value.id)
  {
    var r := InlineRoundOf16(pools);
    InlineSlots(pools);
    assert Slots(r)[4] == r[2].team1 && Slots(r)[5] == r[2].team2;
    assert r[2].team1.value.id == pools[D][0].id;
    assert r[2].team2.value.id == pools[D][2].id;
  }

  /** The quarter-finals once the Round of 16 is complete: QFk pairs the winners of
      matches 2k and 2k + 1, nobody has won yet. */
  function BuildQuarterFinals(r16: seq<Match>): (r: seq<Match>)
    requires Complete(r16, 8)
    ensures |r| == 4 && Unplayed(r)
    ensures forall k :: 0 <= k < 4 ==> r[k].id == QuarterFinalNames[k].id && r[k].caption == QuarterFinalNames[k].caption
    ensures forall k :: 0 <= k < 4 ==> r[k].team1 == r16[2 * k].winner && r[k].team2 == r16[2 * k + 1].winner
    ensures forall j :: 0 <= j < 8 ==> Slots(r)[j] == r16[j].winner
  {
    var slots := FilledSlots(Winners(r16));
    var r := Round(QuarterFinalNames, slots);
    NextRoundSlots(r16, r, slots);
    r
  }

  /** A round laid out from the winners of the round before, one slot per winner. */
  lemma NextRoundSlots(prev: seq<Match>, r: seq<Match>, slots: seq<Option<Team>>)
    requires forall i :: 0 <= i < |prev| ==> prev[i].winner.Some?
    requires slots == FilledSlots(Winners(prev)) && Slots(r) == slots
    ensures forall j :: 0 <= j < |prev| ==> Slots(r)[j] == prev[j].winner
    ensures forall k :: 0 <= k < |r| ==> r[k].team1 == prev[2 * k].winner && r[k].team2 == prev[2 * k + 1].winner
  {
    var w := Winners(prev);
    forall j | 0 <= j < |prev| ensures Slots(r)[j] == prev[j].winner {
      assert slots[j] == Some(w[j]);
    }
    forall k | 0 <= k < |r| ensures r[k].team1 == prev[2 * k].winner && r[k].team2 == prev[2 * k + 1].winner {
      assert Slots(r)[2 * k] == r[k].team1 && Slots(r)[2 * k + 1] == r[k].team2;
    }
  }

  /** The semi-finals once the quarter-finals are complete: SF1 pairs the winners of
      QF1 and QF2, SF2 those of QF3 and QF4. */
  function BuildSemiFinals(qf: seq<Match>): (r: seq<Match>)
    requires Complete(qf, 4)
    ensures |r| == 2 && Unplayed(r)
    ensures forall k :: 0 <= k < 2 ==> r[k].id == SemiFinalNames[k].id && r[k].caption == SemiFinalNames[k].caption
    ensures forall k :: 0 <= k < 2 ==> r[k].team1 == qf[2 * k].winner && r[k].team2 == qf[2 * k + 1].winner
    ensures forall j :: 0 <= j < 4 ==> Slots(r)[j] == qf[j].winner
  {
    var slots := FilledSlots(Winners(qf));
    var r := Round(SemiFinalNames, slots);
    NextRoundSlots(qf, r, slots);
    r
  }

  /** The team of a played match that did not win, found by comparing ids with team1. */
  function Loser(m: Match): (r: Option<Team>)
    requires m.team1.Some? && m.winner.Some?
    ensures r == m.team1 || r == m.team2
  {
    if m.team1.value.id == m.winner.value.id then m.team2 else m.team1
  }

  /** When the two teams have distinct ids and the winner is one of them, the
      loser is exactly the other one. */
  lemma LoserIsOther(m: Match)
    requires m.team1.Some? && m.team2.Some? && m.team1.value.id != m.team2.value.id
    requires m.winner == m.team1 || m.winner == m.team2
    ensures Loser(m).Some? && Loser(m).value.id != m.winner.value.id
    ensures m.winner == m.team1 ==> Loser(m) == m.team2
    ensures m.winner == m.team2 ==> Loser(m) == m.team1
  {
  }

  /** A semi-final round whose third-place match can be built: the controller reads
      `team1` of every semi-final that has a winner. */
  ghost predicate LosersReadable(sf: seq<Match>) {
    forall i :: 0 <= i < |sf| && sf[i].winner.Some? ==> sf[i].team1.Some?
  }

  /** The final once both semi-finals are complete: their winners, nobody has won yet. */
  function BuildFinal(sf: seq<Match>): (r: Match)
    requires Complete(sf, 2)
    ensures r.id == FinalName.id && r.caption == FinalName.caption && r.winner.None?
    ensures r.team1 == sf[0].winner && r.team2 == sf[1].winner
  {
    Match(FinalName.id, FinalName.caption, sf[0].winner, sf[1].winner, None)
  }

  /** The third-place match once both semi-finals are complete: their losers. */
  function BuildThirdPlace(sf: seq<Match>): (r: Match)
    requires Complete(sf, 2) && LosersReadable(sf)
    ensures r.id == ThirdPlaceName.id && r.caption == ThirdPlaceName.caption && r.winner.None?
    ensures r.team1 == Loser(sf[0]) && r.team2 == Loser(sf[1])
  {
    Match(ThirdPlaceName.id, ThirdPlaceName.caption, Loser(sf[0]), Loser(sf[1]), None)
  }

  /** Each semi-final sends one team to the final and the other to the third-place
      match, so the four teams of the last two matches are the four semi-finalists. */
  lemma {:induction false} SemiFinalistsSplit(sf: seq<Match>)
    requires Complete(sf, 2) && AllSound(sf) && DistinctSlots(Slots(sf))
    ensures var f := BuildFinal(sf);
            var t := BuildThirdPlace(sf);
            && multiset{f.team1, t.team1} == multiset{sf[0].team1, sf[0].team2}
            && multiset{f.team2, t.team2} == multiset{sf[1].team1, sf[1].team2}
            && DistinctSlots(Slots([f, t]))
  {
    var s := Slots(sf);
    assert s[0] == sf[0].team1 && s[1] == sf[0].team2 && s[2] == sf[1].team1 && s[3] == sf[1].team2;
    assert Sound(sf[0]) && Sound(sf[1]);
    LoserIsOther(sf[0]);
    LoserIsOther(sf[1]);
    var f := BuildFinal(sf);
    var t := BuildThirdPlace(sf);
    var place := [if f.team1 == s[0] then 0 else 1, if f.team2 == s[2] then 2 else 3,
                  if t.team1 == s[0] then 0 else 1, if t.team2 == s[2] then 2 else 3];
    var u := Slots([f, t]);
    assert u[0] == f.team1 && u[1] == f.team2 && u[2] == t.team1 && u[3] == t.team2;
    PickedSlotsDistinct(s, u, place);
  }

  /** Slots taken one for one from distinct slots of a round with distinct teams hold distinct teams. */
  lemma PickedSlotsDistinct(s: seq<Option<Team>>, u: seq<Option<Team>>, place: seq<int>)
    requires DistinctSlots(s) && |place| == |u|
    requires forall j :: 0 <= j < |place| ==> 0 <= place[j] < |s| && u[j] == s[place[j]]
    requires forall i, j :: 0 <= i < j < |place| ==> place[i] != place[j]
    ensures DistinctSlots(u)
  {
    forall i, j | 0 <= i < |u| && 0 <= j < |u| && i != j && u[i].Some? && u[j].Some?
      ensures u[i].value.id != u[j].value.id
    {
      assert place[i] != place[j];
    }
  }
}

=== FILE: ranking.dfy ===
/**
 Selection of the qualified third-place pools from the user's third-place
 rankings: keep the entries whose rank is a number, sort them by ascending rank
 with a stable sort (entries of equal rank keep their key order), and take the
 pool ids of the first four.
 */
module Ranking {
  import opened Optional
  import opened Teams

  /** One entry of the rankings object, in key order; a rank that is not a number is `None`. */
  datatype RankEntry = RankEntry(pool: PoolId, rank: Option<int>)

  /** An entry whose rank is a number. */
  datatype Ranked = Ranked(pool: PoolId, rank: int)

  const BestThirdCount := 4

  /** Object keys are unique. */
  ghost predicate DistinctKeys(rs: seq<RankEntry>) {
    forall i, j :: 0 <= i < j < |rs| ==> rs[i].pool != rs[j].pool
  }

  ghost predicate DistinctPools(s: seq<Ranked>) {
    forall i, j :: 0 <= i < j < |s| ==> s[i].pool != s[j].pool
  }

  ghost predicate NoDup(ps: seq<PoolId>) {
    forall i, j :: 0 <= i < j < |ps| ==> ps[i] != ps[j]
  }

  ghost predicate Sorted(s: seq<Ranked>) {
    forall i, j :: 0 <= i < j < |s| ==> s[i].rank <= s[j].rank
  }

  /** The entries of `s` whose rank is `v`, in order. */
  function WithRank(s: seq<Ranked>, v: int): seq<Ranked> {
    if s == [] then []
    else if s[0].rank == v then [s[0]] + WithRank(s[1..], v)
    else WithRank(s[1..], v)
  }

  /** The entries of the rankings whose rank is the number `v`, in key order. */
  function RankedAs(rs: seq<RankEntry>, v: int): seq<Ranked> {
    if rs == [] then []
    else if rs[0].rank == Some(v) then [Ranked(rs[0].pool, v)] + RankedAs(rs[1..], v)
    else RankedAs(rs[1..], v)
  }

  /** The entries whose rank is a number, in key order: for every rank value, its
      entries come out in the order the rankings list them. */
  function Numeric(rs: seq<RankEntry>): (r: seq<Ranked>)
    ensures |r| <= |rs|
    ensures forall x :: x in r <==> RankEntry(x.pool, Some(x.rank)) in rs
    ensures DistinctKeys(rs) ==> DistinctPools(r)
    ensures forall v :: WithRank(r, v) == RankedAs(rs, v)
  {
    if rs == [] then []
    else
      var rest := Numeric(rs[1..]);
      assert forall x :: x in rest ==> RankEntry(x.pool, Some(x.rank)) in rs[1..];
      match rs[0].rank
      case Some(v) =>
        var r := [Ranked(rs[0].pool, v)] + rest;
        assert r[1..] == rest;
        r
      case None => rest
  }

  /** Inserts `e` before the first entry of rank at least its own. */
  function Insert(e: Ranked, xs: seq<Ranked>): (r: seq<Ranked>)
    ensures |r| == |xs| + 1
    ensures multiset(r) == multiset(xs) + multiset{e}
    ensures forall y :: y in r <==> y == e || y in xs
  {
    if xs == [] || e.rank <= xs[0].rank then [e] + xs
    else
      assert xs == [xs[0]] + xs[1..];
      [xs[0]] + Insert(e, xs[1..])
  }

  lemma SortedCons(x: Ranked, s: seq<Ranked>)
    requires Sorted(s)
    requires forall y :: y in s ==> x.rank <= y.rank
    ensures Sorted([x] + s)
  {
    var t := [x] + s;
    forall i, j | 0 <= i < j < |t| ensures t[i].rank <= t[j].rank {
      if i == 0 {
        assert t[j] == s[j - 1];
      } else {
        assert t[i] == s[i - 1] && t[j] == s[j - 1];
      }
    }
  }

  lemma DistinctCons(x: Ranked, s: seq<Ranked>)
    requires DistinctPools(s)
    requires forall y :: y in s ==> x.pool != y.pool
    ensures DistinctPools([x] + s)
  {
    var t := [x] + s;
    forall i, j | 0 <= i < j < |t| ensures t[i].pool != t[j].pool {
      if i == 0 {
        assert t[j] == s[j - 1];
      } else {
        assert t[i] == s[i - 1] && t[j] == s[j - 1];
      }
    }
  }

  /** Inserting into a sorted sequence gives a sorted sequence. */
  lemma {:induction false} InsertSorted(e: Ranked, xs: seq<Ranked>)
    requires Sorted(xs)
    ensures Sorted(Insert(e, xs))
  {
    if xs == [] || e.rank <= xs[0].rank {
      forall y | y in xs ensures e.rank <= y.rank {
        var k :| 0 <= k < |xs| && xs[k] == y;
        assert k == 0 || xs[0].rank <= xs[k].rank;
      }
      SortedCons(e, xs);
    } else {
      var tail := xs[1..];
      assert Sorted(tail);
      InsertSorted(e, tail);
      forall y | y in Insert(e, tail) ensures xs[0].rank <= y.rank {
        if y != e {
          var k :| 0 <= k < |tail| && tail[k] == y;
          assert xs[k + 1] == y;
        }
      }
      SortedCons(xs[0], Insert(e, tail));
    }
  }

  /** Inserting an entry of a new pool keeps the pools distinct. */
  lemma {:induction false} InsertDistinct(e: Ranked, xs: seq<Ranked>)
    requires DistinctPools(xs)
    requires forall x :: x in xs ==> x.pool != e.pool
    ensures DistinctPools(Insert(e, xs))
  {
    if xs == [] || e.rank <= xs[0].rank {
      DistinctCons(e, xs);
    } else {
      var tail := xs[1..];
      assert DistinctPools(tail);
      InsertDistinct(e, tail);
      forall y | y in Insert(e, tail) ensures xs[0].pool != y.pool {
        if y != e {
          var k :| 0 <= k < |tail| && tail[k] == y;
          assert xs[k + 1] == y;
        }
      }
      DistinctCons(xs[0], Insert(e, tail));
    }
  }

  /** A stable insertion sort by ascending rank. */
  function SortByRank(s: seq<Ranked>): (r: seq<Ranked>)
    ensures |r| == |s|
    ensures multiset(r) == multiset(s)
    ensures forall x :: x in r <==> x in s
  {
    if s == [] then []
    else
      assert s == [s[0]] + s[1..];
      Insert(s[0], SortByRank(s[1..]))
  }

  /** The sort's output is ordered by rank. */
  lemma {:induction false} SortSorted(s: seq<Ranked>)
    ensures Sorted(SortByRank(s))
  {
    if s != [] {
      SortSorted(s[1..]);
      InsertSorted(s[0], SortByRank(s[1..]));
    }
  }

  /** Sorting entries of distinct pools keeps them distinct. */
  lemma {:induction false} SortDistinct(s: seq<Ranked>)
    ensures DistinctPools(s) ==> DistinctPools(SortByRank(s))
  {
    if s != [] && DistinctPools(s) {
      assert DistinctPools(s[1..]);
      SortDistinct(s[1..]);
      forall x | x in SortByRank(s[1..]) ensures x.pool != s[0].pool {
        var k :| 0 <= k < |s[1..]| && s[1..][k] == x;
        assert s[k + 1] == x;
      }
      InsertDistinct(s[0], SortByRank(s[1..]));
    }
  }

  /** Insertion keeps, for every rank value, the relative order of the entries of that rank. */
  lemma {:induction false} InsertStable(e: Ranked, xs: seq<Ranked>, v: int)
    ensures WithRank(Insert(e, xs), v) == if e.rank == v then [e] + WithRank(xs, v) else WithRank(xs, v)
  {
    if xs == [] || e.rank <= xs[0].rank {
      assert ([e] + xs)[1..] == xs;
    } else {
      InsertStable(e, xs[1..], v);
      var rest := Insert(e, xs[1..]);
      assert ([xs[0]] + rest)[1..] == rest;
    }
  }

  /** The sort is stable: for every rank value, the entries of that rank appear
      in the sorted sequence in the order they had in the input. */
  lemma {:induction false} SortIsStable(s: seq<Ranked>, v: int)
    ensures WithRank(SortByRank(s), v) == WithRank(s, v)
  {
    if s != [] {
      SortIsStable(s[1..], v);
      InsertStable(s[0], SortByRank(s[1..]), v);
    }
  }

  /** The numerically ranked entries chosen as best thirds: the first four by rank. */
  function BestThirds(rs: seq<RankEntry>): (r: seq<Ranked>)
    ensures |r| == if |Numeric(rs)| <= BestThirdCount then |Numeric(rs)| else BestThirdCount
    ensures forall x :: x in r ==> x in Numeric(rs)
    ensures Sorted(r)
    ensures DistinctKeys(rs) ==> DistinctPools(r)
  {
    var numeric := Numeric(rs);
    var sorted := SortByRank(numeric);
    SortSorted(numeric);
    SortDistinct(numeric);
    if |sorted| <= BestThirdCount then sorted
    else
      var r := sorted[..BestThirdCount];
      assert forall x :: x in r ==> x in sorted;
      r
  }

  /** The ids of the qualified third-place pools, lowest rank first. */
  function QualifiedPools(rs: seq<RankEntry>): (r: seq<PoolId>)
    ensures |r| == if |Numeric(rs)| <= BestThirdCount then |Numeric(rs)| else BestThirdCount
    ensures forall i :: 0 <= i < |r| ==> r[i] == BestThirds(rs)[i].pool
    ensures forall i :: 0 <= i < |r| ==> RankEntry(r[i], Some(BestThirds(rs)[i].rank)) in rs
    ensures DistinctKeys(rs) ==> NoDup(r)
  {
    var b := BestThirds(rs);
    BestAreRanked(rs, b);
    PoolsOf(b)
  }

  /** The pool ids of ranked entries, in order. */
  function PoolsOf(b: seq<Ranked>): (r: seq<PoolId>)
    ensures |r| == |b| && forall i :: 0 <= i < |b| ==> r[i] == b[i].pool
    ensures DistinctPools(b) ==> NoDup(r)
  {
    seq(|b|, i requires 0 <= i < |b| => b[i].pool)
  }

  lemma BestAreRanked(rs: seq<RankEntry>, b: seq<Ranked>)
    requires b == BestThirds(rs)
    ensures forall i :: 0 <= i < |b| ==> RankEntry(b[i].pool, Some(b[i].rank)) in rs
  {
    forall i | 0 <= i < |b| ensures RankEntry(b[i].pool, Some(b[i].rank)) in rs {
      assert b[i] in b;
    }
  }

  /** The best thirds are the first entries of the sorted numeric entries. */
  lemma BestIsPrefix(rs: seq<RankEntry>)
    ensures |BestThirds(rs)| <= |SortByRank(Numeric(rs))|
    ensures BestThirds(rs) == SortByRank(Numeric(rs))[..|BestThirds(rs)|]
  {
  }

  /** The qualified pools come in ascending rank, and no numerically ranked pool
      left out has a lower rank than a qualified one. */
  lemma BestThirdsAreLowest(rs: seq<RankEntry>)
    ensures forall i, j :: 0 <= i < j < |BestThirds(rs)| ==> BestThirds(rs)[i].rank <= BestThirds(rs)[j].rank
    ensures forall a, b :: a in BestThirds(rs) && b in Numeric(rs) && b.pool !in QualifiedPools(rs) ==> a.rank <= b.rank
  {
    var sorted := SortByRank(Numeric(rs));
    SortSorted(Numeric(rs));
    var best := BestThirds(rs);
    var q := QualifiedPools(rs);
    BestIsPrefix(rs);
    forall a, b | a in best && b in Numeric(rs) && b.pool !in q
      ensures a.rank <= b.rank
    {
      forall i | 0 <= i < |best| ensures best[i] != b {
        assert q[i] == best[i].pool;
      }
      PrefixLowest(sorted, |best|, a, b);
    }
  }

  /** In a sorted sequence, an entry of a prefix ranks no higher than an entry outside it. */
  lemma PrefixLowest(sorted: seq<Ranked>, n: nat, a: Ranked, b: Ranked)
    requires Sorted(sorted) && n <= |sorted|
    requires a in sorted[..n] && b in sorted && b !in sorted[..n]
    ensures a.rank <= b.rank
  {
    var prefix := sorted[..n];
    var i :| 0 <= i < n && prefix[i] == a;
    var j :| 0 <= j < |sorted| && sorted[j] == b;
    assert sorted[i] == a;
    assert forall k :: 0 <= k < n ==> sorted[k] == prefix[k] && prefix[k] in prefix;
    assert i < j;
  }

  /** With at most four numerically ranked pools, every one of them qualifies. */
  lemma FewRankedAllQualify(rs: seq<RankEntry>)
    requires |Numeric(rs)| <= BestThirdCount
    ensures forall x :: x in Numeric(rs) ==> x.pool in QualifiedPools(rs)
  {
    var sorted := SortByRank(Numeric(rs));
    BestIsPrefix(rs);
    forall x | x in Numeric(rs) ensures x.pool in QualifiedPools(rs) {
      assert x in sorted;
      var j :| 0 <= j < |sorted| && sorted[j] == x;
      assert QualifiedPools(rs)[j] == x.pool;
    }
  }

  lemma {:induction false} WithRankAppend(s: seq<Ranked>, t: seq<Ranked>, v: int)
    ensures WithRank(s + t, v) == WithRank(s, v) + WithRank(t, v)
  {
    if s != [] {
      assert (s + t)[0] == s[0] && (s + t)[1..] == s[1..] + t;
      WithRankAppend(s[1..], t, v);
    } else {
      assert s + t == t;
    }
  }

  lemma {:induction false} RankedAsAppend(x: seq<RankEntry>, y: seq<RankEntry>, v: int)
    ensures RankedAs(x + y, v) == RankedAs(x, v) + RankedAs(y, v)
  {
    if x != [] {
      assert (x + y)[0] == x[0] && (x + y)[1..] == x[1..] + y;
      RankedAsAppend(x[1..], y, v);
    } else {
      assert x + y == y;
    }
  }

  lemma {:induction false} WithRankMembers(s: seq<Ranked>, v: int)
    ensures forall y :: y in WithRank(s, v) <==> y in s && y.rank == v
  {
    if s != [] {
      WithRankMembers(s[1..], v);
      assert forall y :: y in s <==> y == s[0] || y in s[1..];
    }
  }

  lemma {:induction false} RankedAsMembers(t: seq<RankEntry>, v: int)
    ensures forall y :: y in RankedAs(t, v) <==> y.rank == v && RankEntry(y.pool, Some(v)) in t
  {
    if t != [] {
      RankedAsMembers(t[1..], v);
      assert forall e :: e in t <==> e == t[0] || e in t[1..];
    }
  }

  /** The qualified entries of any one rank are the first entries of that rank in
      key order: on equal ranks the earlier key wins. */
  lemma TiesKeepKeyOrder(rs: seq<RankEntry>, v: int)
    ensures var p := WithRank(BestThirds(rs), v);
            |p| <= |RankedAs(rs, v)| && p == RankedAs(rs, v)[..|p|]
  {
    var sorted := SortByRank(Numeric(rs));
    var n := |BestThirds(rs)|;
    BestIsPrefix(rs);
    assert sorted == sorted[..n] + sorted[n..];
    WithRankAppend(sorted[..n], sorted[n..], v);
    SortIsStable(Numeric(rs), v);
  }

  /** Of two numerically ranked pools with the same rank, the later one in key
      order qualifies only if the earlier one does. */
  lemma TieGoesToEarlier(rs: seq<RankEntry>, a: nat, b: nat, v: int)
    requires DistinctKeys(rs) && a < b < |rs|
    requires rs[a].rank == Some(v) && rs[b].rank == Some(v)
    requires rs[b].pool in QualifiedPools(rs)
    ensures rs[a].pool in QualifiedPools(rs)
  {
    var best := BestThirds(rs);
    var p := WithRank(best, v);
    var front := RankedAs(rs[..b], v);
    var back := RankedAs(rs[b..], v);
    var x := Ranked(rs[b].pool, v);
    var y := Ranked(rs[a].pool, v);
    TiesKeepKeyOrder(rs, v);
    assert rs == rs[..b] + rs[b..];
    RankedAsAppend(rs[..b], rs[b..], v);
    SplitAtLater(rs, a, b, v);
    QualifiedInTies(rs, b, v);
    PrefixReaches(front, back, p, x, y);
    WithRankMembers(best, v);
    var j :| 0 <= j < |best| && best[j] == y;
    assert QualifiedPools(rs)[j] == rs[a].pool;
  }

  /** Before key `b`, the entries of rank `v` include key `a` and not key `b`'s pool. */
  lemma SplitAtLater(rs: seq<RankEntry>, a: nat, b: nat, v: int)
    requires DistinctKeys(rs) && a < b < |rs|
    requires rs[a].rank == Some(v)
    ensures Ranked(rs[a].pool, v) in RankedAs(rs[..b], v)
    ensures Ranked(rs[b].pool, v) !in RankedAs(rs[..b], v)
  {
    RankedAsMembers(rs[..b], v);
    forall j | 0 <= j < b ensures rs[..b][j] != RankEntry(rs[b].pool, Some(v)) {
      assert rs[..b][j] == rs[j];
    }
    assert rs[..b][a] == rs[a];
  }

  /** A qualified pool's entry is among the qualified entries of its rank. */
  lemma QualifiedInTies(rs: seq<RankEntry>, b: nat, v: int)
    requires DistinctKeys(rs) && b < |rs| && rs[b].rank == Some(v)
    requires rs[b].pool in QualifiedPools(rs)
    ensures Ranked(rs[b].pool, v) in WithRank(BestThirds(rs), v)
  {
    var q := QualifiedPools(rs);
    var best := BestThirds(rs);
    var k :| 0 <= k < |q| && q[k] == rs[b].pool;
    var e := RankEntry(best[k].pool, Some(best[k].rank));
    assert e in rs;
    var ie :| 0 <= ie < |rs| && rs[ie] == e;
    assert ie == b;
    assert best[k] in best;
    WithRankMembers(best, v);
  }

  /** If `p` is a prefix of `front + back` that reaches `x`, and `x` is not in
      `front`, then `p` covers all of `front`. */
  lemma PrefixReaches<T>(front: seq<T>, back: seq<T>, p: seq<T>, x: T, y: T)
    requires |p| <= |front + back| && p == (front + back)[..|p|]
    requires x in p && x !in front && y in front
    ensures y in p
  {
    var w := front + back;
    var kp :| 0 <= kp < |p| && p[kp] == x;
    forall i | 0 <= i < |front| ensures w[i] != x {
      assert w[i] == front[i];
    }
    assert w[kp] == x;
    var ia :| 0 <= ia < |front| && front[ia] == y;
    assert p[ia] == w[ia];
  }
}

=== FILE: seeding.dfy ===
/**
 The Round-of-16 seeding engine: the best-third opponents of the four hosts are
 assigned greedily from fixed priority lists, and the eight matches follow a
 fixed template of pool winners, runners-up and best thirds.
 */
module Seeding {
  import opened Optional
  import opened Teams
  import opened Bracket
  import opened Ranking

  /** The four Round-of-16 hosts that face a best third: the winners of pools A to D,
      resolved in this order. */
  datatype Host = A1 | B1 | C1 | D1

  const HostOrder: seq<Host> := [A1, B1, C1, D1]

  function HostPool(h: Host): PoolId {
    match h
    case A1 => A
    case B1 => B
    case C1 => C
    case D1 => D
  }

  /** The pools whose third a host may face, in priority order; never the host's own pool. */
  function Allowed(h: Host): (r: seq<PoolId>)
    ensures |r| == 3 && HostPool(h) !in r
    ensures r[1] == E && r[2] == F
  {
    match h
    case A1 => [C, E, F]
    case B1 => [D, E, F]
    case C1 => [A, E, F]
    case D1 => [B, E, F]
  }

  /** The first pool of `allowed` that is qualified and not yet used. */
  function PickPool(allowed: seq<PoolId>, qualified: seq<PoolId>, used: set<PoolId>): (r: Option<PoolId>)
    ensures r.Some? ==> r.value in allowed && r.value in qualified && r.value !in used
    ensures r.None? <==> forall p :: p in allowed ==> p !in qualified || p in used
    ensures r.Some? ==> exists i :: 0 <= i < |allowed| && allowed[i] == r.value
                          && forall j :: 0 <= j < i ==> allowed[j] !in qualified || allowed[j] in used
  {
    if allowed == [] then None
    else if allowed[0] in qualified && allowed[0] !in used then Some(allowed[0])
    else
      var r := PickPool(allowed[1..], qualified, used);
      assert r.Some? ==> exists i :: 0 <= i < |allowed[1..]| && allowed[1..][i] == r.value
                          && forall j :: 0 <= j < i ==> allowed[1..][j] !in qualified || allowed[1..][j] in used;
      if r.Some? then
        var i :| 0 <= i < |allowed[1..]| && allowed[1..][i] == r.value
                 && forall j :: 0 <= j < i ==> allowed[1..][j] !in qualified || allowed[1..][j] in used;
        assert allowed[i + 1] == r.value;
        assert forall j :: 0 <= j < i + 1 ==> allowed[j] !in qualified || allowed[j] in used by {
          forall j | 0 <= j < i + 1 ensures allowed[j] !in qualified || allowed[j] in used {
            if j > 0 {
              assert allowed[j] == allowed[1..][j - 1];
            }
          }
        }
        r
      else
        r
  }

  /** On a three-pool list, the pick is the first eligible of the three. */
  lemma PickPool3(allowed: seq<PoolId>, qualified: seq<PoolId>, used: set<PoolId>)
    requires |allowed| == 3
    ensures PickPool(allowed, qualified, used)
            == if allowed[0] in qualified && allowed[0] !in used then Some(allowed[0])
               else if allowed[1] in qualified && allowed[1] !in used then Some(allowed[1])
               else if allowed[2] in qualified && allowed[2] !in used then Some(allowed[2])
               else None
  {
    var t1 := allowed[1..];
    var t2 := t1[1..];
    assert t1[0] == allowed[1] && t2[0] == allowed[2] && t2[1..] == [];
  }

  function UsedBy(p: Option<PoolId>): set<PoolId> {
    if p.Some? then {p.value} else {}
  }

  /** The pool whose third each host faces, or `None`. */
  datatype Assignment = Assignment(a1: Option<PoolId>, b1: Option<PoolId>, c1: Option<PoolId>, d1: Option<PoolId>)

  function Pick(asg: Assignment, h: Host): Option<PoolId> {
    match h
    case A1 => asg.a1
    case B1 => asg.b1
    case C1 => asg.c1
    case D1 => asg.d1
  }

  /** The pools taken by the hosts resolved before `h`. */
  function UsedBefore(asg: Assignment, h: Host): set<PoolId> {
    match h
    case A1 => {}
    case B1 => UsedBy(asg.a1)
    case C1 => UsedBy(asg.a1) + UsedBy(asg.b1)
    case D1 => UsedBy(asg.a1) + UsedBy(asg.b1) + UsedBy(asg.c1)
  }

  function PickedSet(asg: Assignment): set<PoolId> {
    UsedBy(asg.a1) + UsedBy(asg.b1) + UsedBy(asg.c1) + UsedBy(asg.d1)
  }

  function Ind(b: bool): nat {
    if b then 1 else 0
  }

  /** The number of hosts that face a best third. */
  function Filled(asg: Assignment): nat {
    Ind(asg.a1.Some?) + Ind(asg.b1.Some?) + Ind(asg.c1.Some?) + Ind(asg.d1.Some?)
  }

  /** Host `h` faces either nobody or the third of a qualified pool of its own list. */
  ghost predicate Faces(asg: Assignment, h: Host, qualified: seq<PoolId>) {
    Pick(asg, h).Some? ==> Pick(asg, h).value in Allowed(h) && Pick(asg, h).value in qualified
  }

  ghost predicate Differ<T>(x: Option<T>, y: Option<T>) {
    x.Some? && y.Some? ==> x.value != y.value
  }

  /** No pool is used by two hosts. */
  ghost predicate PicksDistinct(asg: Assignment) {
    && Differ(asg.a1, asg.b1) && Differ(asg.a1, asg.c1) && Differ(asg.a1, asg.d1)
    && Differ(asg.b1, asg.c1) && Differ(asg.b1, asg.d1) && Differ(asg.c1, asg.d1)
  }

  /** Greedy first-available assignment of qualified pools to the hosts A1, B1, C1, D1 in turn. */
  function ResolvePools(qualified: seq<PoolId>): (r: Assignment)
    ensures Faces(r, A1, qualified) && Faces(r, B1, qualified) && Faces(r, C1, qualified) && Faces(r, D1, qualified)
    ensures PicksDistinct(r)
    ensures qualified == [] ==> r == Assignment(None, None, None, None)
  {
    var a := PickPool(Allowed(A1), qualified, {});
    var b := PickPool(Allowed(B1), qualified, UsedBy(a));
    var c := PickPool(Allowed(C1), qualified, UsedBy(a) + UsedBy(b));
    var d := PickPool(Allowed(D1), qualified, UsedBy(a) + UsedBy(b) + UsedBy(c));
    Assignment(a, b, c, d)
  }

  /** Each host takes the first pool of its list that is qualified and not taken by
      an earlier host, and is left without opponent only when there is none. */
  lemma ResolveIsGreedy(qualified: seq<PoolId>, h: Host)
    ensures var r := ResolvePools(qualified);
            Pick(r, h).None? ==> forall p :: p in Allowed(h) ==> p !in qualified || p in UsedBefore(r, h)
    ensures var r := ResolvePools(qualified);
            Pick(r, h).Some? ==>
              && Pick(r, h).value !in UsedBefore(r, h)
              && exists i :: 0 <= i < 3 && Allowed(h)[i] == Pick(r, h).value
                   && forall j :: 0 <= j < i ==> Allowed(h)[j] !in qualified || Allowed(h)[j] in UsedBefore(r, h)
  {
    var r := ResolvePools(qualified);
    assert Pick(r, h) == PickPool(Allowed(h), qualified, UsedBefore(r, h));
  }

  /** How many of the six pools occur in `qualified`. */
  function InCount(qualified: seq<PoolId>): nat {
    Ind(A in qualified) + Ind(B in qualified) + Ind(C in qualified)
    + Ind(D in qualified) + Ind(E in qualified) + Ind(F in qualified)
  }

  lemma {:induction false} InCountNoDup(qualified: seq<PoolId>)
    requires NoDup(qualified)
    ensures InCount(qualified) == |qualified|
  {
    if qualified != [] {
      var t := qualified[1..];
      assert NoDup(t);
      InCountNoDup(t);
      assert forall p :: p in qualified <==> p == qualified[0] || p in t;
      assert qualified[0] !in t;
    }
  }

  /** Four distinct qualified pools give every host an opponent, whichever four of
      the six pools they are. */
  lemma FourQualifiedFillAll(qualified: seq<PoolId>)
    requires |qualified| == 4 && NoDup(qualified)
    ensures var r := ResolvePools(qualified); r.a1.Some? && r.b1.Some? && r.c1.Some? && r.d1.Some?
  {
    InCountNoDup(qualified);
    var r := ResolvePools(qualified);
    PickPool3(Allowed(A1), qualified, {});
    PickPool3(Allowed(B1), qualified, UsedBy(r.a1));
    PickPool3(Allowed(C1), qualified, UsedBy(r.a1) + UsedBy(r.b1));
    PickPool3(Allowed(D1), qualified, UsedBy(r.a1) + UsedBy(r.b1) + UsedBy(r.c1));
  }

  lemma PickedCount(asg: Assignment)
    requires PicksDistinct(asg)
    ensures |PickedSet(asg)| == Filled(asg)
  {
    var s1 := UsedBy(asg.a1);
    var s2 := s1 + UsedBy(asg.b1);
    var s3 := s2 + UsedBy(asg.c1);
    assert s1 !! UsedBy(asg.b1);
    assert |s2| == |s1| + |UsedBy(asg.b1)|;
    assert s2 !! UsedBy(asg.c1);
    assert |s3| == |s2| + |UsedBy(asg.c1)|;
    assert s3 !! UsedBy(asg.d1);
    assert |PickedSet(asg)| == |s3| + |UsedBy(asg.d1)|;
  }

  function SetOf(ps: seq<PoolId>): set<PoolId> {
    set p | p in ps
  }

  /** No more hosts are filled than there are distinct qualified pools, and so, for
      a list without repeats such as `QualifiedPools` gives, than qualified pools. */
  lemma FilledAtMostQualified(qualified: seq<PoolId>)
    ensures Filled(ResolvePools(qualified)) <= |SetOf(qualified)|
    ensures NoDup(qualified) ==> Filled(ResolvePools(qualified)) <= |qualified|
  {
    var r := ResolvePools(qualified);
    PickedCount(r);
    var picked := PickedSet(r);
    var all := SetOf(qualified);
    assert Faces(r, A1, qualified) && Faces(r, B1, qualified) && Faces(r, C1, qualified) && Faces(r, D1, qualified);
    assert UsedBy(r.a1) <= all && UsedBy(r.b1) <= all && UsedBy(r.c1) <= all && UsedBy(r.d1) <= all;
    assert picked <= all;
    SubsetCard(picked, all);
    if NoDup(qualified) {
      SetOfNoDup(qualified);
    }
  }

  lemma SubsetCard(a: set<PoolId>, b: set<PoolId>)
    requires a <= b
    ensures |a| <= |b|
  {
    assert b == a + (b - a);
    assert a !! (b - a);
  }

  lemma {:induction false} SetOfNoDup(ps: seq<PoolId>)
    requires NoDup(ps)
    ensures |SetOf(ps)| == |ps|
  {
    if ps != [] {
      var tail := ps[1..];
      assert NoDup(tail);
      SetOfNoDup(tail);
      assert SetOf(ps) == {ps[0]} + SetOf(tail);
      assert ps[0] !in SetOf(tail);
    }
  }

  ghost predicate IsThirdOf(t: Team, p: PoolId) {
    t.mark.Some? && t.mark.value.poolId == p
  }

  /** The first candidate tagged with pool `pid`, or `None`. */
  function GetThirdTeam(pid: PoolId, candidates: seq<Team>): (r: Option<Team>)
    ensures r.Some? ==> r.value in candidates && IsThirdOf(r.value, pid)
    ensures r.None? <==> forall t :: t in candidates ==> !IsThirdOf(t, pid)
    ensures r.Some? && |candidates| > 0 && IsThirdOf(candidates[0], pid) ==> r.value == candidates[0]
    ensures r.Some? ==> exists i :: 0 <= i < |candidates| && candidates[i] == r.value &&
                                    forall j :: 0 <= j < i ==> !IsThirdOf(candidates[j], pid)
  {
    if candidates == [] then None
    else if candidates[0].mark.Some? && candidates[0].mark.value.poolId == pid then Some(candidates[0])
    else
      assert forall t :: t in candidates ==> t == candidates[0] || t in candidates[1..];
      GetThirdTeam(pid, candidates[1..])
  }

  function ThirdOf(p: Option<PoolId>, candidates: seq<Team>): Option<Team> {
    if p.Some? then GetThirdTeam(p.value, candidates) else None
  }

  /** The third-placed team each host faces, or `None`. */
  datatype BestThird = BestThird(a1: Option<Team>, b1: Option<Team>, c1: Option<Team>, d1: Option<Team>)

  function Opponent(bt: BestThird, h: Host): Option<Team> {
    match h
    case A1 => bt.a1
    case B1 => bt.b1
    case C1 => bt.c1
    case D1 => bt.d1
  }

  /** The pool a third-place candidate was copied from, if any. */
  function ThirdPool(o: Option<Team>): Option<PoolId> {
    if o.Some? && o.value.mark.Some? then Some(o.value.mark.value.poolId) else None
  }

  /** Host `h` faces either nobody or a candidate copied from a qualified pool of its list. */
  ghost predicate OpponentOk(bt: BestThird, h: Host, qualified: seq<PoolId>, candidates: seq<Team>) {
    Opponent(bt, h).Some? ==>
      && Opponent(bt, h).value in candidates
      && ThirdPool(Opponent(bt, h)).Some?
      && ThirdPool(Opponent(bt, h)).value in Allowed(h)
      && ThirdPool(Opponent(bt, h)).value in qualified
  }

  ghost predicate OpponentsDistinct(bt: BestThird) {
    && Differ(ThirdPool(bt.a1), ThirdPool(bt.b1)) && Differ(ThirdPool(bt.a1), ThirdPool(bt.c1))
    && Differ(ThirdPool(bt.a1), ThirdPool(bt.d1)) && Differ(ThirdPool(bt.b1), ThirdPool(bt.c1))
    && Differ(ThirdPool(bt.b1), ThirdPool(bt.d1)) && Differ(ThirdPool(bt.c1), ThirdPool(bt.d1))
  }

  /** `o` is what looking up the third of pool `x` among the candidates gives: a
      candidate copied from `x`, or nothing exactly when there is no pool or no
      candidate of it. */
  ghost predicate ThirdFound(o: Option<Team>, x: Option<PoolId>, candidates: seq<Team>) {
    && (o.Some? ==> o.value in candidates && ThirdPool(o) == x)
    && (o.None? <==> x.None? || forall t :: t in candidates ==> !IsThirdOf(t, x.value))
  }

  /** Each host's opponent is the third of the pool the greedy assignment gave it. */
  function ResolveBestThirdOpponents(qualified: seq<PoolId>, candidates: seq<Team>): (r: BestThird)
    ensures var asg := ResolvePools(qualified);
            && ThirdFound(Opponent(r, A1), Pick(asg, A1), candidates)
            && ThirdFound(Opponent(r, B1), Pick(asg, B1), candidates)
            && ThirdFound(Opponent(r, C1), Pick(asg, C1), candidates)
            && ThirdFound(Opponent(r, D1), Pick(asg, D1), candidates)
    ensures OpponentOk(r, A1, qualified, candidates) && OpponentOk(r, B1, qualified, candidates)
    ensures OpponentOk(r, C1, qualified, candidates) && OpponentOk(r, D1, qualified, candidates)
    ensures OpponentsDistinct(r)
    ensures qualified == [] ==> r == BestThird(None, None, None, None)
  {
    var asg := ResolvePools(qualified);
    var r := BestThird(ThirdOf(asg.a1, candidates), ThirdOf(asg.b1, candidates),
                       ThirdOf(asg.c1, candidates), ThirdOf(asg.d1, candidates));
    ThirdOfPool(asg.a1, candidates);
    ThirdOfPool(asg.b1, candidates);
    ThirdOfPool(asg.c1, candidates);
    ThirdOfPool(asg.d1, candidates);
    r
  }

  /** A found third comes from the candidates and from the pool asked for. */
  lemma ThirdOfPool(x: Option<PoolId>, candidates: seq<Team>)
    ensures ThirdFound(ThirdOf(x, candidates), x, candidates)
  {
  }

  /** The position of a pool in key order. */
  function PoolIndex(p: PoolId): (i: nat)
    ensures i < |PoolOrder| && PoolOrder[i] == p
  {
    match p
    case A => 0
    case B => 1
    case C => 2
    case D => 3
    case E => 4
    case F => 5
  }

  lemma PoolIndexUnique(p: PoolId, i: nat)
    requires i < |PoolOrder| && PoolOrder[i] == p
    ensures i == PoolIndex(p)
  {
  }

  /** When exactly one candidate is tagged with `pid`, that candidate is found. */
  lemma FindsOnlyTagged(pid: PoolId, candidates: seq<Team>, x: Team)
    requires x in candidates && IsThirdOf(x, pid)
    requires forall t :: t in candidates && IsThirdOf(t, pid) ==> t == x
    ensures GetThirdTeam(pid, candidates) == Some(x)
  {
  }

  /** For the candidates of well-formed pools, the candidate of pool `p` is that
      pool's index-2 team. */
  lemma ThirdOfPools(pools: Pools, p: PoolId)
    requires Shaped(pools)
    ensures GetThirdTeam(p, ThirdCandidates(pools)) == Some(AsThird(pools[p][2], p))
  {
    var cs := ThirdCandidates(pools);
    var k := PoolIndex(p);
    assert cs[k] == AsThird(pools[p][2], p);
    forall t | t in cs && IsThirdOf(t, p) ensures t == cs[k] {
      var i :| 0 <= i < |cs| && cs[i] == t;
      PoolIndexUnique(p, i);
    }
    FindsOnlyTagged(p, cs, cs[k]);
  }

  /** The Round of 16 of the seeding engine; `None` stands for absent pools. */
  function DetermineRoundOf16(pools: Option<Pools>, rankings: seq<RankEntry>): (r: seq<Match>)
    requires pools.Some? ==> Shaped(pools.value)
    ensures pools.None? ==> r == []
    ensures pools.Some? ==> |r| == 8 && Unplayed(r)
    ensures pools.Some? ==> forall i :: 0 <= i < 8 ==> r[i].id == RoundOf16Names[i].id
  {
    if pools.None? then []
    else
      var ps := pools.value;
      var bt := ResolveBestThirdOpponents(QualifiedPools(rankings), ThirdCandidates(ps));
      Round(RoundOf16Names, [
        Some(ps[A][0]), bt.a1,          // A1 vs C/E/F third
        Some(ps[B][0]), bt.b1,          // B1 vs D/E/F third
        Some(ps[C][1]), Some(ps[F][1]), // C2 vs F2
        Some(ps[E][0]), Some(ps[D][1]), // E1 vs D2
        Some(ps[A][1]), Some(ps[E][1]), // A2 vs E2
        Some(ps[F][0]), Some(ps[B][1]), // F1 vs B2
        Some(ps[C][0]), bt.c1,          // C1 vs A/E/F third
        Some(ps[D][0]), bt.d1           // D1 vs B/E/F third
      ])
  }

  function ThirdPlaceOf(x: Option<PoolId>): Option<Place> {
    if x.Some? then Some((x.value, 2)) else None
  }

  /** The places of the sixteen slots of the template, for a given assignment. */
  function SeedPlaces(asg: Assignment): seq<Option<Place>> {
    [ Some((A, 0)), ThirdPlaceOf(asg.a1), Some((B, 0)), ThirdPlaceOf(asg.b1),
      Some((C, 1)), Some((F, 1)), Some((E, 0)), Some((D, 1)),
      Some((A, 1)), Some((E, 1)), Some((F, 0)), Some((B, 1)),
      Some((C, 0)), ThirdPlaceOf(asg.c1), Some((D, 0)), ThirdPlaceOf(asg.d1) ]
  }

  /** The sixteen slots of the seeding engine's Round of 16, in match order. This
      lays out the template the bracket properties are proved from; those properties
      are `RoundOf16TopTwoOnce`, `RoundOf16NoSamePool` and `RoundOf16DistinctTeams`. */
  lemma SeedSlots(pools: Pools, rankings: seq<RankEntry>)
    requires Shaped(pools)
    ensures var bt := ResolveBestThirdOpponents(QualifiedPools(rankings), ThirdCandidates(pools));
            Slots(DetermineRoundOf16(Some(pools), rankings)) == [
              Some(pools[A][0]), bt.a1, Some(pools[B][0]), bt.b1,
              Some(pools[C][1]), Some(pools[F][1]), Some(pools[E][0]), Some(pools[D][1]),
              Some(pools[A][1]), Some(pools[E][1]), Some(pools[F][0]), Some(pools[B][1]),
              Some(pools[C][0]), bt.c1, Some(pools[D][0]), bt.d1 ]
  {
  }

  lemma SlotsAtPlaces(pools: Pools, rankings: seq<RankEntry>)
    requires Shaped(pools)
    ensures |SeedPlaces(ResolvePools(QualifiedPools(rankings)))| == 16
    ensures AtPlaces(Slots(DetermineRoundOf16(Some(pools), rankings)), SeedPlaces(ResolvePools(QualifiedPools(rankings))), pools)
  {
    var q := QualifiedPools(rankings);
    var asg := ResolvePools(q);
    var cs := ThirdCandidates(pools);
    var bt := ResolveBestThirdOpponents(q, cs);
    SeedSlots(pools, rankings);
    ThirdSlotAtPlace(pools, asg.a1, bt.a1, cs);
    ThirdSlotAtPlace(pools, asg.b1, bt.b1, cs);
    ThirdSlotAtPlace(pools, asg.c1, bt.c1, cs);
    ThirdSlotAtPlace(pools, asg.d1, bt.d1, cs);
    LiteralAtPlaces(pools, asg, bt, Slots(DetermineRoundOf16(Some(pools), rankings)));
  }

  lemma LiteralAtPlaces(pools: Pools, asg: Assignment, bt: BestThird, slots: seq<Option<Team>>)
    requires Shaped(pools)
    requires slots == [
              Some(pools[A][0]), bt.a1, Some(pools[B][0]), bt.b1,
              Some(pools[C][1]), Some(pools[F][1]), Some(pools[E][0]), Some(pools[D][1]),
              Some(pools[A][1]), Some(pools[E][1]), Some(pools[F][0]), Some(pools[B][1]),
              Some(pools[C][0]), bt.c1, Some(pools[D][0]), bt.d1 ]
    requires ThirdAt(pools, asg.a1, bt.a1) && ThirdAt(pools, asg.b1, bt.b1)
    requires ThirdAt(pools, asg.c1, bt.c1) && ThirdAt(pools, asg.d1, bt.d1)
    ensures AtPlaces(slots, SeedPlaces(asg), pools)
  {
  }

  ghost predicate ThirdAt(pools: Pools, x: Option<PoolId>, o: Option<Team>)
    requires Shaped(pools)
  {
    SlotAt(o, ThirdPlaceOf(x), pools)
  }

  lemma ThirdSlotAtPlace(pools: Pools, x: Option<PoolId>, o: Option<Team>, cs: seq<Team>)
    requires Shaped(pools) && cs == ThirdCandidates(pools) && o == ThirdOf(x, cs)
    ensures ThirdAt(pools, x, o)
  {
    if x.Some? {
      ThirdOfPools(pools, x.value);
    }
  }

  /** Pairwise distinct picks give pairwise distinct places. */
  lemma PlacesInjective(asg: Assignment)
    requires PicksDistinct(asg)
    ensures PlacesDistinct(SeedPlaces(asg))
  {
    var pl := SeedPlaces(asg);
    forall i, j | 0 <= i < |pl| && 0 <= j < |pl| && i != j && pl[i].Some? && pl[j].Some?
      ensures pl[i] != pl[j]
    {
      PlaceSlot(asg, i);
      PlaceSlot(asg, j);
    }
  }

  /** The slot a place serves is determined by the place: a top-two place by its
      pool and index, a third place by the host whose pick it is. */
  lemma PlaceSlot(asg: Assignment, i: nat)
    requires i < 16 && SeedPlaces(asg)[i].Some?
    ensures var (p, k) := SeedPlaces(asg)[i].value;
            || (k < 2 && i == TopTwoSlot(p, k))
            || (k == 2 && exists h :: i == 2 * HostMatch(h) + 1 && Pick(asg, h) == Some(p))
  {
    var (p, k) := SeedPlaces(asg)[i].value;
    if i == 1 {
      assert Pick(asg, A1) == Some(p);
    } else if i == 3 {
      assert Pick(asg, B1) == Some(p);
    } else if i == 13 {
      assert Pick(asg, C1) == Some(p);
    } else if i == 15 {
      assert Pick(asg, D1) == Some(p);
    }
  }

  /** The two places of every match lie in different pools. */
  lemma PlacesOpposed(asg: Assignment, qualified: seq<PoolId>)
    requires Faces(asg, A1, qualified) && Faces(asg, B1, qualified) && Faces(asg, C1, qualified) && Faces(asg, D1, qualified)
    ensures PlacesOpposite(SeedPlaces(asg))
  {
  }

  /** The match of the Round of 16 in which host `h` plays. */
  function HostMatch(h: Host): (m: nat)
    ensures m < 8
  {
    match h
    case A1 => 0
    case B1 => 1
    case C1 => 6
    case D1 => 7
  }

  /** The slot of the template that the winner (k = 0) or runner-up (k = 1) of pool `p` fills. */
  function TopTwoSlot(p: PoolId, k: nat): (j: nat)
    requires k < 2
    ensures j < 16
  {
    match (p, k)
    case (A, 0) => 0  case (B, 0) => 2  case (C, 1) => 4  case (F, 1) => 5
    case (E, 0) => 6  case (D, 1) => 7  case (A, 1) => 8  case (E, 1) => 9
    case (F, 0) => 10 case (B, 1) => 11 case (C, 0) => 12 case (D, 0) => 14
  }

  /** No two slots of the seeding engine's Round of 16 hold the same team. */
  lemma RoundOf16DistinctTeams(pools: Pools, rankings: seq<RankEntry>)
    requires WellFormed(pools)
    ensures DistinctSlots(Slots(DetermineRoundOf16(Some(pools), rankings)))
  {
    var asg := ResolvePools(QualifiedPools(rankings));
    SlotsAtPlaces(pools, rankings);
    PlacesInjective(asg);
    DistinctByPlaces(Slots(DetermineRoundOf16(Some(pools), rankings)), SeedPlaces(asg), pools);
  }

  /** The winner (k = 0) and runner-up (k = 1) of every pool fill their own slot of the template. */
  lemma TopTwoAtSlot(pools: Pools, rankings: seq<RankEntry>, p: PoolId, k: nat)
    requires Shaped(pools) && k < 2
    ensures Slots(DetermineRoundOf16(Some(pools), rankings))[TopTwoSlot(p, k)] == Some(pools[p][k])
  {
    var bt := ResolveBestThirdOpponents(QualifiedPools(rankings), ThirdCandidates(pools));
    SeedSlots(pools, rankings);
    TopTwoInLiteral(pools, bt, Slots(DetermineRoundOf16(Some(pools), rankings)), p, k);
  }

  lemma TopTwoInLiteral(pools: Pools, bt: BestThird, slots: seq<Option<Team>>, p: PoolId, k: nat)
    requires Shaped(pools) && k < 2
    requires slots == [
              Some(pools[A][0]), bt.a1, Some(pools[B][0]), bt.b1,
              Some(pools[C][1]), Some(pools[F][1]), Some(pools[E][0]), Some(pools[D][1]),
              Some(pools[A][1]), Some(pools[E][1]), Some(pools[F][0]), Some(pools[B][1]),
              Some(pools[C][0]), bt.c1, Some(pools[D][0]), bt.d1 ]
    ensures slots[TopTwoSlot(p, k)] == Some(pools[p][k])
  {
    if k == 0 {
      match p
      case A => case B => case C => case D => case E => case F =>
    } else {
      match p
      case A => case B => case C => case D => case E => case F =>
    }
  }

  /** Every pool's winner and runner-up play in exactly one slot of the Round of 16. */
  lemma RoundOf16TopTwoOnce(pools: Pools, rankings: seq<RankEntry>, p: PoolId, k: nat)
    requires WellFormed(pools) && k < 2
    ensures var slots := Slots(DetermineRoundOf16(Some(pools), rankings));
            exists j :: 0 <= j < |slots| && slots[j] == Some(pools[p][k])
              && forall j' :: 0 <= j' < |slots| && j' != j && slots[j'].Some? ==> slots[j'].value.id != pools[p][k].id
  {
    var slots := Slots(DetermineRoundOf16(Some(pools), rankings));
    TopTwoAtSlot(pools, rankings, p, k);
    RoundOf16DistinctTeams(pools, rankings);
    var j := TopTwoSlot(p, k);
    assert 0 <= j < |slots| && slots[j] == Some(pools[p][k]);
  }

  /** No match of the Round of 16 pairs two teams of the same pool. */
  lemma RoundOf16NoSamePool(pools: Pools, rankings: seq<RankEntry>)
    requires WellFormed(pools)
    ensures var r := DetermineRoundOf16(Some(pools), rankings);
            forall m, p :: 0 <= m < |r| && r[m].team1.Some? && r[m].team2.Some? ==>
              !(InPool(pools, p, r[m].team1.value.id) && InPool(pools, p, r[m].team2.value.id))
  {
    var asg := ResolvePools(QualifiedPools(rankings));
    SlotsAtPlaces(pools, rankings);
    PlacesOpposed(asg, QualifiedPools(rankings));
    OpposedNoSamePool(DetermineRoundOf16(Some(pools), rankings), SeedPlaces(asg), pools);
  }

  /** Each host plays the winner of its own pool against nobody or against the
      index-2 team, fields kept and tagged with its pool, of a qualified pool of its list. */
  lemma RoundOf16Hosts(pools: Pools, rankings: seq<RankEntry>, h: Host)
    requires Shaped(pools)
    ensures var m := DetermineRoundOf16(Some(pools), rankings)[HostMatch(h)];
            && m.team1 == Some(pools[HostPool(h)][0])
            && (m.team2.Some? ==> exists p :: p in Allowed(h) && p in QualifiedPools(rankings)
                                            && m.team2 == Some(AsThird(pools[p][2], p)))
  ensures var m := DetermineRoundOf16(Some(pools), rankings)[HostMatch(h)];
          var pick := Pick(ResolvePools(QualifiedPools(rankings)), h);
          && (pick.None? <==> m.team2.None?)
          && (pick.Some? ==> m.team2 == Some(AsThird(pools[pick.value][2], pick.value)))
  {
    var q := QualifiedPools(rankings);
    var cs := ThirdCandidates(pools);
    var bt := ResolveBestThirdOpponents(q, cs);
    HostSlots(pools, rankings, h);
    var pick := Pick(ResolvePools(q), h);
    assert ThirdFound(Opponent(bt, h), pick, cs);
    assert Faces(ResolvePools(q), h, q);
    if pick.Some? {
      ThirdOfPools(pools, pick.value);
      assert Opponent(bt, h) == GetThirdTeam(pick.value, cs) by {
        PickedThird(bt, q, cs, h);
      }
    }
  }

  /** Host A1 lists pool C first, so whenever C qualifies A1 meets C's third. */
  lemma A1MeetsThirdOfC(pools: Pools, rankings: seq<RankEntry>)
    requires Shaped(pools)
    ensures C in QualifiedPools(rankings) ==>
              DetermineRoundOf16(Some(pools), rankings)[0].team2 == Some(AsThird(pools[C][2], C))
  {
    if C in QualifiedPools(rankings) {
      PickPool3(Allowed(A1), QualifiedPools(rankings), {});
      RoundOf16Hosts(pools, rankings, A1);
    }
  }

  /** The opponent of a host with a pick is the lookup of that pool's third. */
  lemma PickedThird(bt: BestThird, q: seq<PoolId>, cs: seq<Team>, h: Host)
    requires bt == ResolveBestThirdOpponents(q, cs) && Pick(ResolvePools(q), h).Some?
    ensures Opponent(bt, h) == GetThirdTeam(Pick(ResolvePools(q), h).value, cs)
  {
    match h
    case A1 => case B1 => case C1 => case D1 =>
  }

  /** The host's match holds the host and its best-third opponent. */
  lemma HostSlots(pools: Pools, rankings: seq<RankEntry>, h: Host)
    requires Shaped(pools)
    ensures var r := DetermineRoundOf16(Some(pools), rankings);
            var bt := ResolveBestThirdOpponents(QualifiedPools(rankings), ThirdCandidates(pools));
            && r[HostMatch(h)].team1 == Some(pools[HostPool(h)][0])
            && r[HostMatch(h)].team2 == Opponent(bt, h)
  {
    var r := DetermineRoundOf16(Some(pools), rankings);
    var bt := ResolveBestThirdOpponents(QualifiedPools(rankings), ThirdCandidates(pools));
    SeedSlots(pools, rankings);
    HostInLiteral(pools, bt, Slots(r), h);
    var m := HostMatch(h);
    assert Slots(r)[2 * m] == r[m].team1 && Slots(r)[2 * m + 1] == r[m].team2;
  }

  lemma HostInLiteral(pools: Pools, bt: BestThird, slots: seq<Option<Team>>, h: Host)
    requires Shaped(pools)
    requires slots == [
              Some(pools[A][0]), bt.a1, Some(pools[B][0]), bt.b1,
              Some(pools[C][1]), Some(pools[F][1]), Some(pools[E][0]), Some(pools[D][1]),
              Some(pools[A][1]), Some(pools[E][1]), Some(pools[F][0]), Some(pools[B][1]),
              Some(pools[C][0]), bt.c1, Some(pools[D][0]), bt.d1 ]
    ensures slots[2 * HostMatch(h)] == Some(pools[HostPool(h)][0])
    ensures slots[2 * HostMatch(h) + 1] == Opponent(bt, h)
  {
    match h
    case A1 => case B1 => case C1 => case D1 =>
  }

  /** With four or more numerically ranked pools, all sixteen slots are filled. */
  lemma RoundOf16Complete(pools: Pools, rankings: seq<RankEntry>)
    requires Shaped(pools) && DistinctKeys(rankings) && |Numeric(rankings)| >= BestThirdCount
    ensures var slots := Slots(DetermineRoundOf16(Some(pools), rankings));
            forall j :: 0 <= j < |slots| ==> slots[j].Some?
  {
    var q := QualifiedPools(rankings);
    FourQualifiedFillAll(q);
    SlotsAtPlaces(pools, rankings);
    AllPlacesFilled(ResolvePools(q));
    FilledFromPlaces(Slots(DetermineRoundOf16(Some(pools), rankings)), SeedPlaces(ResolvePools(q)), pools);
  }

  /** Slots at places are all filled when every place is there. */
  lemma FilledFromPlaces(slots: seq<Option<Team>>, pl: seq<Option<Place>>, pools: Pools)
    requires Shaped(pools) && AtPlaces(slots, pl, pools)
    requires forall j :: 0 <= j < |pl| ==> pl[j].Some?
    ensures forall j :: 0 <= j < |slots| ==> slots[j].Some?
  {
    forall j | 0 <= j < |slots| ensures slots[j].Some? {
      assert SlotAt(slots[j], pl[j], pools);
    }
  }

  /** A full assignment gives every slot of the template a place. */
  lemma AllPlacesFilled(asg: Assignment)
    requires asg.a1.Some? && asg.b1.Some? && asg.c1.Some? && asg.d1.Some?
    ensures forall j :: 0 <= j < |SeedPlaces(asg)| ==> SeedPlaces(asg)[j].Some?
  {
  }

  lemma OnlyARankedQualifies()
    ensures QualifiedPools([RankEntry(A, Some(1))]) == [A]
  {
    var rs := [RankEntry(A, Some(1))];
    assert Numeric(rs[1..]) == [];
    assert Numeric(rs) == [Ranked(A, 1)];
    assert SortByRank([Ranked(A, 1)]) == [Ranked(A, 1)];
    assert BestThirds(rs) == [Ranked(A, 1)];
  }

  lemma OnlyAResolved()
    ensures ResolvePools([A]) == Assignment(None, None, Some(A), None)
  {
    PickPool3(Allowed(A1), [A], {});
    PickPool3(Allowed(B1), [A], {});
    PickPool3(Allowed(C1), [A], {});
    PickPool3(Allowed(D1), [A], {A});
  }

  /** With only pool A ranked, only host C1, whose list starts with A, meets a best
      third: pool A's index-2 team, tagged with pool A and position 3. */
  lemma OnlyPoolAOpponents(pools: Pools)
    requires Shaped(pools)
    ensures var r := DetermineRoundOf16(Some(pools), [RankEntry(A, Some(1))]);
            && r[6].team2 == Some(AsThird(pools[A][2], A))
            && r[0].team2.None? && r[1].team2.None? && r[7].team2.None?
  {
    var rs := [RankEntry(A, Some(1))];
    OnlyARankedQualifies();
    OnlyAResolved();
    ThirdOfPools(pools, A);
    HostSlots(pools, rs, A1);
    HostSlots(pools, rs, B1);
    HostSlots(pools, rs, C1);
    HostSlots(pools, rs, D1);
  }

  /** On the initial data, that best third is Chile. */
  lemma OnlyPoolARanked()
    ensures var r := DetermineRoundOf16(Some(InitialPools()), [RankEntry(A, Some(1))]);
            && r[6].team2 == Some(Team("cl", "Chile", Some(ThirdMark(A, 3))))
            && r[0].team2.None? && r[1].team2.None? && r[7].team2.None?
  {
    OnlyPoolAOpponents(InitialPools());
    InitialThirdOfA();
  }

  lemma InitialThirdOfA()
    ensures InitialPools()[A][2] == Team("cl", "Chile", None)
  {
  }
}

=== FILE: teams.dfy ===
/**
 The initial pool data of the 2027 Rugby World Cup: six pools (A to F) of four
 teams each. A pool is an ordered sequence whose order encodes the standing:
 index 0 wins the pool, index 1 is runner-up, index 2 is the best-third
 candidate, index 3 is eliminated.
 */
module Teams {
  import opened Optional

  datatype PoolId = A | B | C | D | E | F

  /** The two fields a third-place candidate gains when it is copied out of its pool. */
  datatype ThirdMark = ThirdMark(poolId: PoolId, position: int)

  /** A team: its identity is `id`; `name` stands for the display payload.
      `mark` is `None` for a team as loaded and `Some` for a best-third candidate. */
  datatype Team = Team(id: string, name: string, mark: Option<ThirdMark>)

  type Pool = seq<Team>
  type Pools = map<PoolId, Pool>

  const PoolSize := 4

  /** The key order of the pools object: the order of the initial literal, which
      reordering keeps because it only re-assigns an existing key. */
  const PoolOrder: seq<PoolId> := [A, B, C, D, E, F]

  /** The shape every pools value of the tournament has: all six pools, four teams
      each, and no team id used twice across the whole collection. */
  ghost predicate WellFormed(pools: Pools) {
    Shaped(pools) && DistinctIds(pools)
  }

  /** All six pools are present, each with four teams. */
  ghost predicate Shaped(pools: Pools) {
    forall p: PoolId :: p in pools && |pools[p]| == PoolSize
  }

  ghost predicate DistinctIds(pools: Pools) {
    forall p, q, i, j ::
      p in pools && q in pools && 0 <= i < |pools[p]| && 0 <= j < |pools[q]| && (p != q || i != j)
      ==> pools[p][i].id != pools[q][j].id
  }

  /** No team of the pools carries a third-place tag, as with the data as loaded. */
  ghost predicate Untagged(pools: Pools) {
    forall p, i :: p in pools && 0 <= i < |pools[p]| ==> pools[p][i].mark.None?
  }

  /** A team with id `id` stands in pool `p`. */
  ghost predicate InPool(pools: Pools, p: PoolId, id: string) {
    p in pools && exists k :: 0 <= k < |pools[p]| && pools[p][k].id == id
  }

  /** A third-place candidate: the team with all its fields, plus its pool and position 3. */
  function AsThird(t: Team, p: PoolId): (r: Team)
    ensures r.id == t.id && r.name == t.name
    ensures r.mark == Some(ThirdMark(p, 3))
  {
    t.(mark := Some(ThirdMark(p, 3)))
  }

  /** One third-place candidate per pool, in key order. */
  function ThirdCandidates(pools: Pools): (r: seq<Team>)
    requires Shaped(pools)
    ensures |r| == |PoolOrder|
    ensures forall i :: 0 <= i < |r| ==> r[i] == AsThird(pools[PoolOrder[i]][2], PoolOrder[i])
  {
    seq(|PoolOrder|, i requires 0 <= i < |PoolOrder| => AsThird(pools[PoolOrder[i]][2], PoolOrder[i]))
  }

  function InitialPools(): (r: Pools)
    ensures WellFormed(r) && Untagged(r)
    ensures r.Keys == set p: PoolId | p in PoolOrder
  {
    var pools := InitialLiteral();
    InitialIdsDistinct(pools);
    pools
  }

  function InitialLiteral(): Pools {
    map[
      A := [Team("nz", "New Zealand", None), Team("au", "Australia", None),
            Team("cl", "Chile", None), Team("hk", "Hong Kong China", None)],
      B := [Team("za", "South Africa", None), Team("it", "Italy", None),
            Team("ge", "Georgia", None), Team("ro", "Romania", None)],
      C := [Team("ar", "Argentina", None), Team("fj", "Fiji", None),
            Team("es", "Spain", None), Team("ca", "Canada", None)],
      D := [Team("ie", "Ireland", None), Team("sc", "Scotland", None),
            Team("uy", "Uruguay", None), Team("pt", "Portugal", None)],
      E := [Team("fr", "France", None), Team("jp", "Japan", None),
            Team("us", "USA", None), Team("ws", "Samoa", None)],
      F := [Team("en", "England", None), Team("wa", "Wales", None),
            Team("to", "Tonga", None), Team("zw", "Zimbabwe", None)]
    ]
  }

  /** Where each initial team id stands: a left inverse of the id function. */
  function PlaceOf(id: string): (PoolId, nat) {
    match id
    case "nz" => (A, 0) case "au" => (A, 1) case "cl" => (A, 2) case "hk" => (A, 3)
    case "za" => (B, 0) case "it" => (B, 1) case "ge" => (B, 2) case "ro" => (B, 3)
    case "ar" => (C, 0) case "fj" => (C, 1) case "es" => (C, 2) case "ca" => (C, 3)
    case "ie" => (D, 0) case "sc" => (D, 1) case "uy" => (D, 2) case "pt" => (D, 3)
    case "fr" => (E, 0) case "jp" => (E, 1) case "us" => (E, 2) case "ws" => (E, 3)
    case "en" => (F, 0) case "wa" => (F, 1) case "to" => (F, 2) case "zw" => (F, 3)
    case _ => (A, 4)
  }

  /** The ids of the initial data are pairwise distinct, because every id
      determines its own place in the collection. */
  lemma InitialIdsDistinct(pools: Pools)
    requires pools == InitialLiteral()
    ensures WellFormed(pools)
    ensures forall p: PoolId, i :: 0 <= i < PoolSize ==> PlaceOf(pools[p][i].id) == (p, i)
  {
    forall p: PoolId
      ensures p in pools && |pools[p]| == PoolSize
    {
      match p
      case A => case B => case C => case D => case E => case F =>
    }
    forall p: PoolId, i | 0 <= i < PoolSize
      ensures PlaceOf(pools[p][i].id) == (p, i)
    {
      PlaceOfInitial(pools, p, i);
    }
  }

  lemma PlaceOfInitial(pools: Pools, p: PoolId, i: nat)
    requires pools == InitialLiteral() && i < PoolSize
    ensures p in pools && |pools[p]| == PoolSize
    ensures PlaceOf(pools[p][i].id) == (p, i)
  {
    match p
    case A =>
    case B =>
    case C =>
    case D =>
    case E =>
    case F =>
  }

  /** A deep copy of the initial pools; with immutable values a copy is the value itself. */
  function GetInitialPools(): (r: Pools)
    ensures WellFormed(r)
    ensures forall p: PoolId :: r[p] == InitialPools()[p]
  {
    InitialPools()
  }
}

=== FILE: tournament.dfy ===
/**
 The tournament controller as a state machine. The state record holds the seven
 pieces of hook state; an action is one of the four operations; after an action's
 state updates are committed, the four effects whose dependency was set run in
 declaration order against the committed state, and their own updates are
 committed in turn until no dependency was set.
 */
module Tournament {
  import opened Optional
  import opened Teams
  import opened Bracket
  import opened Progression
  import opened PoolStore

  datatype State = State(
    pools: Pools,
    roundOf16: seq<Match>,
    quarterFinals: seq<Match>,
    semiFinals: seq<Match>,
    final: Match,
    thirdPlace: Match,
    champion: Option<Team>)

  /** Which of the effects' dependencies the last commit set; every setter call
      stores a new value, so a set dependency counts as changed. */
  datatype Dirty = Dirty(pools: bool, roundOf16: bool, quarterFinals: bool, semiFinals: bool)

  const Clean := Dirty(false, false, false, false)

  /** The operations of the controller; `stage` is the free-form stage string. */
  datatype Action =
    | ReorderTeam(pool: PoolId, source: nat, target: nat)
    | ResetPools
    | ResetBracket
    | SelectWinner(stage: string, matchId: string, winner: Team)

  /** The object `{}` the final and third-place states hold before the first effects run. */
  const Unset := Match("", "", None, None, None)

  /** The state of the first render. */
  function Mounting(): (r: State)
    ensures r.pools == InitialPools() && r.roundOf16 == [] && r.quarterFinals == [] && r.semiFinals == []
    ensures r.final == Unset && r.thirdPlace == Unset && r.champion == None
  {
    State(GetInitialPools(), [], [], [], Unset, Unset, None)
  }

  function IsRoundOf16Complete(s: State): bool {
    Complete(s.roundOf16, 8)
  }

  function IsQuarterFinalsComplete(s: State): bool {
    Complete(s.quarterFinals, 4)
  }

  function IsSemiFinalsComplete(s: State): bool {
    Complete(s.semiFinals, 2)
  }

  /** The round with `winner` recorded on every match whose id is `id`. */
  function UpdateMatch(ms: seq<Match>, id: string, w: Team): (r: seq<Match>)
    ensures |r| == |ms|
    ensures forall i :: 0 <= i < |ms| && ms[i].id != id ==> r[i] == ms[i]
    ensures forall i :: 0 <= i < |ms| && ms[i].id == id ==>
              && r[i].winner == Some(w)
              && r[i].id == ms[i].id && r[i].caption == ms[i].caption
              && r[i].team1 == ms[i].team1 && r[i].team2 == ms[i].team2
  {
    seq(|ms|, i requires 0 <= i < |ms| => if ms[i].id == id then ms[i].(winner := Some(w)) else ms[i])
  }

  /** The round with the same matches and pairings and no winner anywhere. */
  function ClearWinners(ms: seq<Match>): (r: seq<Match>)
    ensures |r| == |ms| && Unplayed(r) && Slots(r) == Slots(ms)
    ensures forall i :: 0 <= i < |ms| ==> r[i].id == ms[i].id && r[i].caption == ms[i].caption
  {
    var r := seq(|ms|, i requires 0 <= i < |ms| => ms[i].(winner := None));
    SlotsOfPairs(r, Slots(ms));
    r
  }

  /** Recording a winner changes no pairing. */
  lemma UpdateMatchKeepsSlots(ms: seq<Match>, id: string, w: Team)
    ensures Slots(UpdateMatch(ms, id, w)) == Slots(ms)
  {
    SlotsOfPairs(UpdateMatch(ms, id, w), Slots(ms));
  }

  // ---------------------------------------------------------------------------
  // Effects. Each reads the committed state `snap` and adds its updates to `acc`.

  /** On pools: rebuild the Round of 16; the first time (no quarter-finals yet),
      also lay out the empty later rounds. */
  function PoolsEffect(snap: State, acc: (State, Dirty)): (r: (State, Dirty))
    requires Shaped(snap.pools)
    ensures r.0 == acc.0.(roundOf16 := r.0.roundOf16, quarterFinals := r.0.quarterFinals, semiFinals := r.0.semiFinals,
                          final := r.0.final, thirdPlace := r.0.thirdPlace)
    ensures r.0.roundOf16 == InlineRoundOf16(snap.pools)
    ensures |snap.quarterFinals| == 0 ==>
              && r.0.quarterFinals == EmptyQuarterFinals() && r.0.semiFinals == EmptySemiFinals()
              && r.0.final == EmptyMatch(FinalName) && r.0.thirdPlace == EmptyMatch(ThirdPlaceName)
              && r.1 == acc.1.(roundOf16 := true, quarterFinals := true, semiFinals := true)
    ensures |snap.quarterFinals| != 0 ==> r.0 == acc.0.(roundOf16 := r.0.roundOf16) && r.1 == acc.1.(roundOf16 := true)
  {
    var (s, d) := acc;
    var s1 := s.(roundOf16 := InlineRoundOf16(snap.pools));
    if |snap.quarterFinals| == 0 then
      (s1.(quarterFinals := EmptyQuarterFinals(), semiFinals := EmptySemiFinals(),
           final := EmptyMatch(FinalName), thirdPlace := EmptyMatch(ThirdPlaceName)),
       d.(roundOf16 := true, quarterFinals := true, semiFinals := true))
    else
      (s1, d.(roundOf16 := true))
  }

  /** On the Round of 16: once it is complete, build the quarter-finals. */
  function QuarterFinalsEffect(snap: State, acc: (State, Dirty)): (r: (State, Dirty))
    ensures IsRoundOf16Complete(snap) ==>
              r == (acc.0.(quarterFinals := BuildQuarterFinals(snap.roundOf16)), acc.1.(quarterFinals := true))
    ensures !IsRoundOf16Complete(snap) ==> r == acc
  {
    if IsRoundOf16Complete(snap) then
      (acc.0.(quarterFinals := BuildQuarterFinals(snap.roundOf16)), acc.1.(quarterFinals := true))
    else acc
  }

  /** On the quarter-finals: once they are complete, build the semi-finals. */
  function SemiFinalsEffect(snap: State, acc: (State, Dirty)): (r: (State, Dirty))
    ensures IsQuarterFinalsComplete(snap) ==>
              r == (acc.0.(semiFinals := BuildSemiFinals(snap.quarterFinals)), acc.1.(semiFinals := true))
    ensures !IsQuarterFinalsComplete(snap) ==> r == acc
  {
    if IsQuarterFinalsComplete(snap) then
      (acc.0.(semiFinals := BuildSemiFinals(snap.quarterFinals)), acc.1.(semiFinals := true))
    else acc
  }

  /** On the semi-finals: once they are complete, build the final and the
      third-place match; neither is a dependency of any effect. */
  function FinalEffect(snap: State, acc: (State, Dirty)): (r: (State, Dirty))
    requires LosersReadable(snap.semiFinals)
    ensures IsSemiFinalsComplete(snap) ==>
              r == (acc.0.(final := BuildFinal(snap.semiFinals), thirdPlace := BuildThirdPlace(snap.semiFinals)), acc.1)
    ensures !IsSemiFinalsComplete(snap) ==> r == acc
  {
    if IsSemiFinalsComplete(snap) then
      (acc.0.(final := BuildFinal(snap.semiFinals), thirdPlace := BuildThirdPlace(snap.semiFinals)), acc.1)
    else acc
  }

  /** How far up the chain pools, Round of 16, quarter-finals, semi-finals the
      highest set dependency sits; each effect only sets dependencies below its own. */
  function Level(d: Dirty): nat {
    if d.pools then 4 else if d.roundOf16 then 3 else if d.quarterFinals then 2 else if d.semiFinals then 1 else 0
  }

  /** The precondition of every pass: the effects can read what they dereference. */
  ghost predicate Runnable(s: State) {
    Shaped(s.pools) && LosersReadable(s.semiFinals)
  }

  /** One round of effects after a commit: the effects whose dependency was set
      run in declaration order on the committed state. */
  function Pass(s: State, d: Dirty): (r: (State, Dirty))
    requires Runnable(s)
    ensures Runnable(r.0) && r.0.pools == s.pools && r.0.champion == s.champion
    ensures Level(r.1) < Level(d) || (d == Clean && r == (s, Clean))
  {
    PassReadable(s, d);
    PassLowers(s, d);
    Effects(s, d)
  }

  function Effects(s: State, d: Dirty): (r: (State, Dirty))
    requires Runnable(s)
  {
    LowerEffects(s, d, UpperEffects(s, d))
  }

  /** The effects on the pools and on the Round of 16, starting from no dependency set. */
  function UpperEffects(s: State, d: Dirty): (r: (State, Dirty))
    requires Runnable(s)
  {
    var a0 := (s, Clean);
    var a1 := if d.pools then PoolsEffect(s, a0) else a0;
    if d.roundOf16 then QuarterFinalsEffect(s, a1) else a1
  }

  /** The effects on the quarter-finals and on the semi-finals, continuing from `acc`. */
  function LowerEffects(s: State, d: Dirty, acc: (State, Dirty)): (r: (State, Dirty))
    requires Runnable(s)
  {
    var a3 := if d.quarterFinals then SemiFinalsEffect(s, acc) else acc;
    if d.semiFinals then FinalEffect(s, a3) else a3
  }

  lemma PassReadable(s: State, d: Dirty)
    requires Runnable(s)
    ensures Runnable(Effects(s, d).0) && Effects(s, d).0.pools == s.pools && Effects(s, d).0.champion == s.champion
  {
    PassKeepsPools(s, d);
    PassSemiFinals(s, d);
  }

  lemma PassKeepsPools(s: State, d: Dirty)
    requires Runnable(s)
    ensures Effects(s, d).0.pools == s.pools && Effects(s, d).0.champion == s.champion
  {
  }

  lemma PassSemiFinals(s: State, d: Dirty)
    requires Runnable(s)
    ensures LosersReadable(Effects(s, d).0.semiFinals)
  {
    var sf := Effects(s, d).0.semiFinals;
    if d.quarterFinals && IsQuarterFinalsComplete(s) {
      assert Unplayed(sf);
    } else if d.pools && |s.quarterFinals| == 0 {
      assert Unplayed(sf);
    } else {
      assert sf == s.semiFinals;
    }
  }

  lemma PassLowers(s: State, d: Dirty)
    requires Runnable(s)
    ensures Level(Effects(s, d).1) < Level(d) || (d == Clean && Effects(s, d) == (s, Clean))
  {
    if d.pools {
      assert !Effects(s, d).1.pools;
    } else if d.roundOf16 {
      assert !Effects(s, d).1.pools && !Effects(s, d).1.roundOf16;
    } else if d.quarterFinals {
      assert Effects(s, d).1 == Clean.(semiFinals := IsQuarterFinalsComplete(s));
    } else if d.semiFinals {
      assert Effects(s, d).1 == Clean;
    }
  }

  /** Commits and effect passes until no dependency is set. */
  function Settle(s: State, d: Dirty): (r: State)
    requires Runnable(s)
    ensures Runnable(r) && r.pools == s.pools && r.champion == s.champion
    ensures d == Clean ==> r == s
    decreases Level(d)
  {
    if d == Clean then s
    else
      var (s1, d1) := Pass(s, d);
      Settle(s1, d1)
  }

  /** The state after mounting: every effect runs once on the first render. */
  function Init(): State {
    var s := Mounting();
    Settle(s, Dirty(true, true, true, true))
  }

  /** The reorder indices lie inside the pool; the out-of-range behaviour of `splice`
      is not part of this model. */
  ghost predicate Applicable(s: State, a: Action) {
    a.ReorderTeam? ==> a.pool in s.pools && a.source < |s.pools[a.pool]| && a.target < |s.pools[a.pool]|
  }

  /** The updates of the operation itself, before any effect, and the dependencies they set. */
  function Apply(s: State, a: Action): (r: (State, Dirty))
    requires Applicable(s, a)
  {
    match a
    case ReorderTeam(p, i, j) =>
      (s.(pools := PoolStore.ReorderTeam(s.pools, p, i, j)), Clean.(pools := true))
    case ResetPools =>
      (s.(pools := GetInitialPools()), Clean.(pools := true))
    case ResetBracket =>
      (s.(roundOf16 := ClearWinners(s.roundOf16), quarterFinals := EmptyQuarterFinals(),
          semiFinals := EmptySemiFinals(), final := EmptyMatch(FinalName),
          thirdPlace := EmptyMatch(ThirdPlaceName), champion := None),
       Dirty(false, true, true, true))
    case SelectWinner(stage, id, w) =>
      if stage == "roundOf16" then
        (s.(roundOf16 := UpdateMatch(s.roundOf16, id, w)), Clean.(roundOf16 := true))
      else if stage == "quarterFinals" then
        (s.(quarterFinals := UpdateMatch(s.quarterFinals, id, w)), Clean.(quarterFinals := true))
      else if stage == "semiFinals" then
        (s.(semiFinals := UpdateMatch(s.semiFinals, id, w)), Clean.(semiFinals := true))
      else if stage == "final" then
        (s.(final := s.final.(winner := Some(w)), champion := Some(w)), Clean)
      else if stage == "thirdPlace" then
        (s.(thirdPlace := s.thirdPlace.(winner := Some(w))), Clean)
      else
        (s, Clean)
  }

  /** The operation can run and every effect it triggers can read what it dereferences. */
  ghost predicate Safe(s: State, a: Action) {
    Shaped(s.pools) && Applicable(s, a) && LosersReadable(Apply(s, a).0.semiFinals)
  }

  /** An operation followed by all the effects it triggers. */
  function Step(s: State, a: Action): (r: State)
    requires Safe(s, a)
  {
    var (s1, d) := Apply(s, a);
    ApplyKeepsShape(s, a);
    Settle(s1, d)
  }

  lemma ApplyKeepsShape(s: State, a: Action)
    requires Shaped(s.pools) && Applicable(s, a)
    ensures Shaped(Apply(s, a).0.pools)
  {
    if a.ReorderTeam? {
      var r := PoolStore.ReorderTeam(s.pools, a.pool, a.source, a.target);
      assert forall p: PoolId :: p in r && |r[p]| == PoolSize by {
        forall p: PoolId ensures p in r && |r[p]| == PoolSize {
          assert p in s.pools;
        }
      }
    }
  }

  // ---------------------------------------------------------------------------
  // Settling.

  /** A round without winners is not complete. */
  lemma UnplayedIncomplete(ms: seq<Match>, n: nat)
    requires n > 0 && Unplayed(ms)
    ensures !Complete(ms, n)
  {
    if |ms| == n {
      assert ms[0].winner.None?;
    }
  }

  /** When no effect whose dependency is set finds its round complete, the effects
      change nothing. */
  lemma Quiet(s: State, d: Dirty)
    requires Runnable(s) && !d.pools
    requires d.roundOf16 ==> !IsRoundOf16Complete(s)
    requires d.quarterFinals ==> !IsQuarterFinalsComplete(s)
    requires d.semiFinals ==> !IsSemiFinalsComplete(s)
    ensures Settle(s, d) == s
  {
    if d != Clean {
      assert Pass(s, d) == (s, Clean);
    }
  }

  /** Mounting: the Round of 16 drawn from the initial pools, empty later rounds, no champion. */
  lemma InitState()
    ensures Init() == State(InitialPools(), InlineRoundOf16(InitialPools()), EmptyQuarterFinals(),
                            EmptySemiFinals(), EmptyMatch(FinalName), EmptyMatch(ThirdPlaceName), None)
  {
    var m := Mounting();
    var all := Dirty(true, true, true, true);
    var s1 := State(InitialPools(), InlineRoundOf16(InitialPools()), EmptyQuarterFinals(),
                    EmptySemiFinals(), EmptyMatch(FinalName), EmptyMatch(ThirdPlaceName), None);
    assert !IsRoundOf16Complete(m) && !IsQuarterFinalsComplete(m) && !IsSemiFinalsComplete(m);
    assert Pass(m, all) == (s1, Dirty(false, true, true, true));
    UnplayedIncomplete(s1.roundOf16, 8);
    UnplayedIncomplete(s1.quarterFinals, 4);
    UnplayedIncomplete(s1.semiFinals, 2);
    Quiet(s1, Dirty(false, true, true, true));
  }

  // ---------------------------------------------------------------------------
  // The invariant.

  /** The matches of a round carry the round's ids and labels, in order. */
  ghost predicate Named(ms: seq<Match>, names: seq<Name>) {
    |ms| == |names| && forall i :: 0 <= i < |ms| ==> ms[i].id == names[i].id && ms[i].caption == names[i].caption
  }

  /** A round as the controller keeps it: named, every winner one of its match's
      two teams, and no team in two slots. */
  ghost predicate RoundOk(ms: seq<Match>, names: seq<Name>) {
    Named(ms, names) && AllSound(ms) && DistinctSlots(Slots(ms))
  }

  /** The final and third-place match: named, sound, four distinct teams between them. */
  ghost predicate LastOk(f: Match, t: Match) {
    && f.id == FinalName.id && f.caption == FinalName.caption
    && t.id == ThirdPlaceName.id && t.caption == ThirdPlaceName.caption
    && Sound(f) && Sound(t) && DistinctSlots(Slots([f, t]))
  }

  ghost predicate Inv(s: State) {
    && WellFormed(s.pools)
    && RoundOk(s.roundOf16, RoundOf16Names)
    && RoundOk(s.quarterFinals, QuarterFinalNames)
    && RoundOk(s.semiFinals, SemiFinalNames)
    && LastOk(s.final, s.thirdPlace)
  }

  lemma InvRunnable(s: State)
    requires Inv(s)
    ensures Runnable(s)
  {
    assert forall i :: 0 <= i < |s.semiFinals| ==> Sound(s.semiFinals[i]);
  }

  lemma InlineRoundOk(pools: Pools)
    requires WellFormed(pools)
    ensures RoundOk(InlineRoundOf16(pools), RoundOf16Names)
  {
    InlineDistinctTeams(pools);
  }

  lemma EmptyRoundsOk()
    ensures RoundOk(EmptyQuarterFinals(), QuarterFinalNames)
    ensures RoundOk(EmptySemiFinals(), SemiFinalNames)
    ensures LastOk(EmptyMatch(FinalName), EmptyMatch(ThirdPlaceName))
  {
    var e := [EmptyMatch(FinalName), EmptyMatch(ThirdPlaceName)];
    assert Slots(e)[0].None? && Slots(e)[1].None? && Slots(e)[2].None? && Slots(e)[3].None?;
  }

  lemma BuiltQuarterFinalsOk(r16: seq<Match>)
    requires RoundOk(r16, RoundOf16Names) && Complete(r16, 8)
    ensures RoundOk(BuildQuarterFinals(r16), QuarterFinalNames)
  {
    var qf := BuildQuarterFinals(r16);
    WinnerSlotsDistinct(r16, Slots(qf));
  }

  lemma BuiltSemiFinalsOk(qf: seq<Match>)
    requires RoundOk(qf, QuarterFinalNames) && Complete(qf, 4)
    ensures RoundOk(BuildSemiFinals(qf), SemiFinalNames)
  {
    var sf := BuildSemiFinals(qf);
    WinnerSlotsDistinct(qf, Slots(sf));
  }

  lemma BuiltLastOk(sf: seq<Match>)
    requires RoundOk(sf, SemiFinalNames) && Complete(sf, 2)
    ensures LosersReadable(sf)
    ensures LastOk(BuildFinal(sf), BuildThirdPlace(sf))
  {
    assert Sound(sf[0]) && Sound(sf[1]);
    SemiFinalistsSplit(sf);
  }

  lemma PoolsEffectInv(snap: State, acc: (State, Dirty), run: bool)
    requires Inv(snap) && Inv(acc.0)
    ensures Inv((if run then PoolsEffect(snap, acc) else acc).0)
  {
    if run {
      InlineRoundOk(snap.pools);
      EmptyRoundsOk();
    }
  }

  lemma QuarterFinalsEffectInv(snap: State, acc: (State, Dirty), run: bool)
    requires Inv(snap) && Inv(acc.0)
    ensures Inv((if run then QuarterFinalsEffect(snap, acc) else acc).0)
  {
    if run && IsRoundOf16Complete(snap) {
      BuiltQuarterFinalsOk(snap.roundOf16);
    }
  }

  lemma SemiFinalsEffectInv(snap: State, acc: (State, Dirty), run: bool)
    requires Inv(snap) && Inv(acc.0)
    ensures Inv((if run then SemiFinalsEffect(snap, acc) else acc).0)
  {
    if run && IsQuarterFinalsComplete(snap) {
      BuiltSemiFinalsOk(snap.quarterFinals);
    }
  }

  lemma FinalEffectInv(snap: State, acc: (State, Dirty), run: bool)
    requires Inv(snap) && Inv(acc.0)
    ensures LosersReadable(snap.semiFinals) && Inv((if run then FinalEffect(snap, acc) else acc).0)
  {
    InvRunnable(snap);
    if run && IsSemiFinalsComplete(snap) {
      BuiltLastOk(snap.semiFinals);
    }
  }

  lemma UpperEffectsInv(s: State, d: Dirty)
    requires Inv(s)
    ensures Runnable(s) && Inv(UpperEffects(s, d).0)
  {
    InvRunnable(s);
    var a0 := (s, Clean);
    PoolsEffectInv(s, a0, d.pools);
    var a1 := if d.pools then PoolsEffect(s, a0) else a0;
    QuarterFinalsEffectInv(s, a1, d.roundOf16);
  }

  lemma LowerEffectsInv(s: State, d: Dirty, acc: (State, Dirty))
    requires Inv(s) && Inv(acc.0)
    ensures Runnable(s) && Inv(LowerEffects(s, d, acc).0)
  {
    InvRunnable(s);
    SemiFinalsEffectInv(s, acc, d.quarterFinals);
    var a3 := if d.quarterFinals then SemiFinalsEffect(s, acc) else acc;
    FinalEffectInv(s, a3, d.semiFinals);
  }

  /** The effects keep the invariant: everything they write is built from a state that has it. */
  lemma PassKeepsInv(s: State, d: Dirty)
    requires Inv(s)
    ensures Runnable(s) && Inv(Pass(s, d).0)
  {
    InvRunnable(s);
    UpperEffectsInv(s, d);
    LowerEffectsInv(s, d, UpperEffects(s, d));
  }

  lemma {:induction false} SettleKeepsInv(s: State, d: Dirty)
    requires Inv(s)
    ensures Runnable(s) && Inv(Settle(s, d))
    decreases Level(d)
  {
    InvRunnable(s);
    if d != Clean {
      PassKeepsInv(s, d);
      var (s1, d1) := Pass(s, d);
      SettleKeepsInv(s1, d1);
    }
  }

  /** Both teams are known and the winner is one of them. */
  ghost predicate Playable(m: Match, w: Team) {
    m.team1.Some? && m.team2.Some? && (m.team1 == Some(w) || m.team2 == Some(w))
  }

  ghost predicate Selectable(ms: seq<Match>, id: string, w: Team) {
    forall i :: 0 <= i < |ms| && ms[i].id == id ==> Playable(ms[i], w)
  }

  /** What the views let the user do: reorder inside a pool, reset, and pick as
      winner one of the two teams of a match whose two teams are known. */
  ghost predicate ValidAction(s: State, a: Action) {
    match a
    case ReorderTeam(p, i, j) => p in s.pools && i < |s.pools[p]| && j < |s.pools[p]|
    case ResetPools => true
    case ResetBracket => true
    case SelectWinner(stage, id, w) =>
      && (stage == "roundOf16" ==> Selectable(s.roundOf16, id, w))
      && (stage == "quarterFinals" ==> Selectable(s.quarterFinals, id, w))
      && (stage == "semiFinals" ==> Selectable(s.semiFinals, id, w))
      && (stage == "final" ==> Playable(s.final, w))
      && (stage == "thirdPlace" ==> Playable(s.thirdPlace, w))
  }

  lemma SelectKeepsRoundOk(ms: seq<Match>, names: seq<Name>, id: string, w: Team)
    requires RoundOk(ms, names) && Selectable(ms, id, w)
    ensures RoundOk(UpdateMatch(ms, id, w), names)
  {
    UpdateMatchKeepsSlots(ms, id, w);
  }

  lemma ClearKeepsRoundOk(ms: seq<Match>, names: seq<Name>)
    requires RoundOk(ms, names)
    ensures RoundOk(ClearWinners(ms), names)
  {
  }

  lemma SelectKeepsLastOk(f: Match, t: Match, w: Team, onFinal: bool)
    requires LastOk(f, t)
    requires if onFinal then Playable(f, w) else Playable(t, w)
    ensures onFinal ==> LastOk(f.(winner := Some(w)), t)
    ensures !onFinal ==> LastOk(f, t.(winner := Some(w)))
  {
    var f' := if onFinal then f.(winner := Some(w)) else f;
    var t' := if onFinal then t else t.(winner := Some(w));
    SlotsOfPairs([f', t'], Slots([f, t]));
  }

  lemma ApplyKeepsInv(s: State, a: Action)
    requires Inv(s) && ValidAction(s, a)
    ensures Applicable(s, a) && Inv(Apply(s, a).0)
  {
    match a
    case ReorderTeam(p, i, j) =>
      ReorderKeepsWellFormed(s.pools, p, i, j);
    case ResetPools =>
    case ResetBracket =>
      ClearKeepsRoundOk(s.roundOf16, RoundOf16Names);
      EmptyRoundsOk();
    case SelectWinner(stage, id, w) =>
      if stage == "roundOf16" {
        SelectKeepsRoundOk(s.roundOf16, RoundOf16Names, id, w);
      } else if stage == "quarterFinals" {
        SelectKeepsRoundOk(s.quarterFinals, QuarterFinalNames, id, w);
      } else if stage == "semiFinals" {
        SelectKeepsRoundOk(s.semiFinals, SemiFinalNames, id, w);
      } else if stage == "final" {
        SelectKeepsLastOk(s.final, s.thirdPlace, w, true);
      } else if stage == "thirdPlace" {
        SelectKeepsLastOk(s.final, s.thirdPlace, w, false);
      }
  }

  /** The state after mounting has the invariant. */
  lemma InitInv()
    ensures Inv(Init())
  {
    InitState();
    InlineRoundOk(InitialPools());
    EmptyRoundsOk();
  }

  /** Every operation the views allow keeps the invariant: pools well formed, every
      round named, every recorded winner one of its match's two teams, no team in
      two slots of a round, and four distinct teams in the final and third-place match. */
  lemma StepKeepsInv(s: State, a: Action)
    requires Inv(s) && ValidAction(s, a)
    ensures Safe(s, a) && Inv(Step(s, a))
  {
    ApplyKeepsInv(s, a);
    InvRunnable(Apply(s, a).0);
    var (s1, d) := Apply(s, a);
    SettleKeepsInv(s1, d);
  }

  // ---------------------------------------------------------------------------
  // The Round of 16 follows the pools.

  /** The Round of 16 is the inline draw of the current pools, up to the winners
      recorded in it. */
  ghost predicate Drawn(s: State) {
    Shaped(s.pools) && ClearWinners(s.roundOf16) == InlineRoundOf16(s.pools)
  }

  /** Two unplayed rounds with the same names and the same pairings are the same round. */
  lemma UnplayedAgree(a: seq<Match>, b: seq<Match>)
    requires |a| == |b| && Unplayed(a) && Unplayed(b) && Slots(a) == Slots(b)
    requires forall i :: 0 <= i < |a| ==> a[i].id == b[i].id && a[i].caption == b[i].caption
    ensures a == b
  {
    forall i | 0 <= i < |a| ensures a[i] == b[i] {
      assert Slots(a)[2 * i] == Slots(b)[2 * i] && Slots(a)[2 * i + 1] == Slots(b)[2 * i + 1];
    }
  }

  /** Clearing the winners of a round nobody has played changes nothing. */
  lemma ClearUnplayed(ms: seq<Match>)
    requires Unplayed(ms)
    ensures ClearWinners(ms) == ms
  {
    UnplayedAgree(ClearWinners(ms), ms);
  }

  /** A recorded winner is gone again once the winners are cleared. */
  lemma ClearAfterUpdate(ms: seq<Match>, id: string, w: Team)
    ensures ClearWinners(UpdateMatch(ms, id, w)) == ClearWinners(ms)
  {
    UpdateMatchKeepsSlots(ms, id, w);
    UnplayedAgree(ClearWinners(UpdateMatch(ms, id, w)), ClearWinners(ms));
  }

  /** Of the effects, only the pools effect writes the Round of 16, and it writes the
      inline draw of the committed pools. */
  lemma UpperRoundOf16(s: State, d: Dirty)
    requires Runnable(s)
    ensures UpperEffects(s, d).0.roundOf16 == if d.pools then InlineRoundOf16(s.pools) else s.roundOf16
  {
  }

  lemma LowerRoundOf16(s: State, d: Dirty, acc: (State, Dirty))
    requires Runnable(s)
    ensures LowerEffects(s, d, acc).0.roundOf16 == acc.0.roundOf16
  {
  }

  /** A pass keeps the Round of 16 drawn from the pools, and restores it when the
      pools changed. */
  lemma PassDraws(s: State, d: Dirty)
    requires Runnable(s) && (Drawn(s) || d.pools)
    ensures Drawn(Pass(s, d).0)
  {
    UpperRoundOf16(s, d);
    LowerRoundOf16(s, d, UpperEffects(s, d));
    if d.pools {
      ClearUnplayed(InlineRoundOf16(s.pools));
    }
  }

  lemma {:induction false} SettleDraws(s: State, d: Dirty)
    requires Runnable(s) && (Drawn(s) || d.pools)
    ensures Drawn(Settle(s, d))
    decreases Level(d)
  {
    if d != Clean {
      PassDraws(s, d);
      var (s1, d1) := Pass(s, d);
      SettleDraws(s1, d1);
    }
  }

  /** After mounting, the Round of 16 is the draw of the initial pools. */
  lemma InitDrawn()
    ensures Drawn(Init())
  {
    SettleDraws(Mounting(), Dirty(true, true, true, true));
  }

  /** Every operation keeps the Round of 16 equal to the draw of the pools up to its
      winners: a pools change redraws it, resetting the bracket and picking a
      Round-of-16 winner touch only winners, and the other operations leave both alone. */
  lemma StepKeepsDrawn(s: State, a: Action)
    requires Drawn(s) && Safe(s, a)
    ensures Drawn(Step(s, a))
  {
    ApplyKeepsShape(s, a);
    ApplyDraws(s, a);
    var (u, d) := Apply(s, a);
    SettleDraws(u, d);
  }

  /** The operation itself either changes the pools, and asks for a redraw, or keeps
      the Round of 16 drawn from them. */
  lemma ApplyDraws(s: State, a: Action)
    requires Drawn(s) && Applicable(s, a)
    ensures Shaped(Apply(s, a).0.pools) && (Drawn(Apply(s, a).0) || Apply(s, a).1.pools)
  {
    ApplyKeepsShape(s, a);
    match a
    case ReorderTeam(_, _, _) =>
    case ResetPools =>
    case ResetBracket =>
      ClearTwice(s.roundOf16);
    case SelectWinner(stage, id, w) =>
      if stage == "roundOf16" {
        ClearAfterUpdate(s.roundOf16, id, w);
      } else {
        assert Apply(s, a).0.roundOf16 == s.roundOf16 && Apply(s, a).0.pools == s.pools;
      }
  }

  // ---------------------------------------------------------------------------
  // The operations, one by one.

  /** Resetting the bracket keeps the Round-of-16 pairings without winners, empties
      the later rounds and the champion, and triggers no rebuild. */
  lemma ResetBracketResult(s: State)
    requires Shaped(s.pools)
    ensures Safe(s, ResetBracket)
    ensures Step(s, ResetBracket) == s.(roundOf16 := ClearWinners(s.roundOf16),
                                        quarterFinals := EmptyQuarterFinals(), semiFinals := EmptySemiFinals(),
                                        final := EmptyMatch(FinalName), thirdPlace := EmptyMatch(ThirdPlaceName),
                                        champion := None)
    ensures var r := Step(s, ResetBracket);
            !IsRoundOf16Complete(r) && !IsQuarterFinalsComplete(r) && !IsSemiFinalsComplete(r)
  {
    var (s1, d) := Apply(s, ResetBracket);
    UnplayedIncomplete(s1.roundOf16, 8);
    UnplayedIncomplete(s1.quarterFinals, 4);
    UnplayedIncomplete(s1.semiFinals, 2);
    Quiet(s1, d);
  }

  lemma ClearTwice(ms: seq<Match>)
    ensures ClearWinners(ClearWinners(ms)) == ClearWinners(ms)
  {
    var once := ClearWinners(ms);
    var twice := ClearWinners(once);
    forall i | 0 <= i < |ms| ensures twice[i] == once[i] {
      assert Slots(twice)[2 * i] == Slots(once)[2 * i] && Slots(twice)[2 * i + 1] == Slots(once)[2 * i + 1];
    }
  }

  /** Resetting the bracket twice in a row gives the state of resetting it once. */
  lemma ResetBracketIdempotent(s: State)
    requires Shaped(s.pools)
    ensures Safe(s, ResetBracket) && Safe(Step(s, ResetBracket), ResetBracket)
    ensures Step(Step(s, ResetBracket), ResetBracket) == Step(s, ResetBracket)
  {
    ResetBracketResult(s);
    ResetBracketResult(Step(s, ResetBracket));
    ClearTwice(s.roundOf16);
  }

  /** A stage string the switch does not know changes nothing. */
  lemma UnknownStageIsNoOp(s: State, stage: string, id: string, w: Team)
    requires Runnable(s)
    requires stage != "roundOf16" && stage != "quarterFinals" && stage != "semiFinals"
    requires stage != "final" && stage != "thirdPlace"
    ensures Safe(s, SelectWinner(stage, id, w)) && Step(s, SelectWinner(stage, id, w)) == s
  {
  }

  /** Picking the final's winner records it and makes that team champion, nothing else. */
  lemma FinalSelection(s: State, id: string, w: Team)
    requires Runnable(s)
    ensures Safe(s, SelectWinner("final", id, w))
    ensures Step(s, SelectWinner("final", id, w)) == s.(final := s.final.(winner := Some(w)), champion := Some(w))
  {
  }

  /** Picking the third-place winner records it, nothing else. */
  lemma ThirdPlaceSelection(s: State, id: string, w: Team)
    requires Runnable(s)
    ensures Safe(s, SelectWinner("thirdPlace", id, w))
    ensures Step(s, SelectWinner("thirdPlace", id, w)) == s.(thirdPlace := s.thirdPlace.(winner := Some(w)))
  {
  }

  lemma StepKeepsChampion(s: State, a: Action)
    requires Safe(s, a)
    ensures Step(s, a).champion == Apply(s, a).0.champion
  {
  }

  /** Only picking the final's winner and resetting the bracket touch the champion. */
  lemma ChampionChanges(s: State, a: Action)
    requires Safe(s, a)
    ensures a.SelectWinner? && a.stage == "final" ==> Step(s, a).champion == Some(a.winner)
    ensures a.ResetBracket? ==> Step(s, a).champion == None
    ensures !(a.SelectWinner? && a.stage == "final") && !a.ResetBracket? ==> Step(s, a).champion == s.champion
  {
    StepKeepsChampion(s, a);
    ApplyChampion(s, a);
  }

  lemma ApplyChampion(s: State, a: Action)
    requires Applicable(s, a)
    ensures Apply(s, a).0.champion
            == if a.SelectWinner? && a.stage == "final" then Some(a.winner)
               else if a.ResetBracket? then None
               else s.champion
  {
    match a
    case ReorderTeam(_, _, _) =>
    case ResetPools =>
    case ResetBracket =>
    case SelectWinner(stage, _, w) =>
  }

  /** Picking a Round-of-16 winner records it on the matches with that id; when that
      completes the round, the quarter-finals are rebuilt from its winners (whatever
      they held), otherwise nothing else changes. */
  lemma RoundOf16Selection(s: State, id: string, w: Team)
    requires Runnable(s)
    ensures Safe(s, SelectWinner("roundOf16", id, w))
    ensures var u := s.(roundOf16 := UpdateMatch(s.roundOf16, id, w));
            Step(s, SelectWinner("roundOf16", id, w))
              == if IsRoundOf16Complete(u) then u.(quarterFinals := BuildQuarterFinals(u.roundOf16)) else u
  {
    var u := s.(roundOf16 := UpdateMatch(s.roundOf16, id, w));
    var d := Clean.(roundOf16 := true);
    if IsRoundOf16Complete(u) {
      var u1 := u.(quarterFinals := BuildQuarterFinals(u.roundOf16));
      assert Pass(u, d) == (u1, Clean.(quarterFinals := true));
      UnplayedIncomplete(u1.quarterFinals, 4);
      Quiet(u1, Clean.(quarterFinals := true));
    } else {
      Quiet(u, d);
    }
  }

  /** Picking a quarter-final winner records it; when that completes the round, the
      semi-finals are rebuilt from its winners, otherwise nothing else changes. */
  lemma QuarterFinalSelection(s: State, id: string, w: Team)
    requires Runnable(s)
    ensures Safe(s, SelectWinner("quarterFinals", id, w))
    ensures var u := s.(quarterFinals := UpdateMatch(s.quarterFinals, id, w));
            Step(s, SelectWinner("quarterFinals", id, w))
              == if IsQuarterFinalsComplete(u) then u.(semiFinals := BuildSemiFinals(u.quarterFinals)) else u
  {
    var u := s.(quarterFinals := UpdateMatch(s.quarterFinals, id, w));
    var d := Clean.(quarterFinals := true);
    if IsQuarterFinalsComplete(u) {
      var u1 := u.(semiFinals := BuildSemiFinals(u.quarterFinals));
      assert Pass(u, d) == (u1, Clean.(semiFinals := true));
      UnplayedIncomplete(u1.semiFinals, 2);
      Quiet(u1, Clean.(semiFinals := true));
    } else {
      Quiet(u, d);
    }
  }

  /** Picking a semi-final winner records it; when that completes the round, the
      final and third-place match are rebuilt without winners, but the champion is
      kept, so a champion picked before stays although the final is open again. */
  lemma SemiFinalSelection(s: State, id: string, w: Team)
    requires Runnable(s) && LosersReadable(UpdateMatch(s.semiFinals, id, w))
    ensures Safe(s, SelectWinner("semiFinals", id, w))
    ensures var u := s.(semiFinals := UpdateMatch(s.semiFinals, id, w));
            Step(s, SelectWinner("semiFinals", id, w))
              == if IsSemiFinalsComplete(u)
                 then u.(final := BuildFinal(u.semiFinals), thirdPlace := BuildThirdPlace(u.semiFinals))
                 else u
    ensures var r := Step(s, SelectWinner("semiFinals", id, w));
            IsSemiFinalsComplete(r) ==> r.final.winner.None? && r.champion == s.champion
  {
    var u := s.(semiFinals := UpdateMatch(s.semiFinals, id, w));
    var d := Clean.(semiFinals := true);
    assert Pass(u, d).1 == Clean;
  }

  /** Once the later rounds exist, reordering a pool redraws the Round of 16 from the
      new pools and leaves the later rounds, winners and champion as they were. */
  lemma ReorderAfterMount(s: State, p: PoolId, i: nat, j: nat)
    requires Runnable(s) && |s.quarterFinals| != 0
    requires p in s.pools && i < |s.pools[p]| && j < |s.pools[p]|
    ensures Safe(s, ReorderTeam(p, i, j))
    ensures var pools := PoolStore.ReorderTeam(s.pools, p, i, j);
            Step(s, ReorderTeam(p, i, j)) == s.(pools := pools, roundOf16 := InlineRoundOf16(pools))
  {
    ApplyKeepsShape(s, ReorderTeam(p, i, j));
    var (u, d) := Apply(s, ReorderTeam(p, i, j));
    var u1 := u.(roundOf16 := InlineRoundOf16(u.pools));
    assert Pass(u, d) == (u1, Clean.(roundOf16 := true));
    UnplayedIncomplete(u1.roundOf16, 8);
    Quiet(u1, Clean.(roundOf16 := true));
  }

  /** Once the later rounds exist, resetting the pools redraws the Round of 16 from
      the initial pools and leaves the later rounds as they were. */
  lemma ResetPoolsAfterMount(s: State)
    requires Runnable(s) && |s.quarterFinals| != 0
    ensures Safe(s, ResetPools)
    ensures Step(s, ResetPools) == s.(pools := InitialPools(), roundOf16 := InlineRoundOf16(InitialPools()))
  {
    var (u, d) := Apply(s, ResetPools);
    var u1 := u.(roundOf16 := InlineRoundOf16(u.pools));
    assert Pass(u, d) == (u1, Clean.(roundOf16 := true));
    UnplayedIncomplete(u1.roundOf16, 8);
    Quiet(u1, Clean.(roundOf16 := true));
  }

  /** Dragging a team from `i` to `j` and back restores the pools; the Round of 16 is
      drawn afresh from them, so in a state where it follows the pools (every reachable
      one, by `InitDrawn` and `StepKeepsDrawn`) only its winners are lost. */
  lemma ReorderRoundTrip(s: State, p: PoolId, i: nat, j: nat)
    requires Runnable(s) && |s.quarterFinals| != 0
    requires p in s.pools && i < |s.pools[p]| && j < |s.pools[p]|
    ensures Safe(s, ReorderTeam(p, i, j))
    ensures Safe(Step(s, ReorderTeam(p, i, j)), ReorderTeam(p, j, i))
    ensures Step(Step(s, ReorderTeam(p, i, j)), ReorderTeam(p, j, i)) == s.(roundOf16 := InlineRoundOf16(s.pools))
    ensures Drawn(s) ==>
              Step(Step(s, ReorderTeam(p, i, j)), ReorderTeam(p, j, i)) == s.(roundOf16 := ClearWinners(s.roundOf16))
  {
    ReorderAfterMount(s, p, i, j);
    var s1 := Step(s, ReorderTeam(p, i, j));
    ReorderAfterMount(s1, p, j, i);
    ReorderBack(s.pools, p, i, j);
  }
}
